=== FILE: README.md ===
# POSPOS sale API core, modelled in Dafny

The sale service is a translation layer in front of a cash-handling
terminal. Its non-trivial part is a single Python module that
(a) reshapes the device's nested JSON replies into small generic answers and
(b) keeps one in-memory order record.

This project models both parts as pure functions over an immutable JSON
datatype:

- `Json`: the JSON values, `dict.get`, list normalisation and `_safe_first_value`.
- `Numerals`: Python's lenient conversions (`str`, `int(str(v))`,
  `float(s) if "." in s else int(s)`, `float(v)`), restricted to whole
  numbers of satang.
- `Config`: the 300-second default rule for the HTTP timeout, both as the
  comment above it states it and as the code computes it.
- `Inventory`: `_map_inventory_response`. It groups denomination records by
  face value and sums the piece counts of slot type "3" into `qty` and of
  slot type "4" into `inStacker`. It classifies banknote or coin and sorts
  highest face value first.
- `Cashin`: `_extract_cashin_amount_baht`. It sums face value × pieces over
  the accepted `Cash` entries and falls back to `Amount[0].value`.
- `Snapshot`: `_get_inserted_amount_from_latest`.
- `Order`: the order record and its four transitions. These are create,
  status read, cancel and cash-in completion. A history of events is
  characterised by reference functions.

All amounts are integer satang (1/100 baht). The Python module divides by 100 to
report baht; that division is a rendering step here.

The docstring of `_map_inventory_response`
(`pospos_api_sale/__init__.py:133-134`) says type "3" feeds `inStacker` and
type "4" feeds `qty`. The code (`pospos_api_sale/__init__.py:191-196`) and
its inline comments do the opposite. The model follows the code: "3" is the
dispensable count `qty`, "4" the stacker total `inStacker`.

## Model

| member | source | states |
|---|---|---|
| Json.Field | pospos_api_sale/__init__.py:142-148 | `dict.get`: a missing key reads as null, a present key as its value |
| Json.AsList | pospos_api_sale/__init__.py:169-170 | a single Denomination object is a one-element list, a list is kept, anything else is empty |
| Json.SafeFirstValue | pospos_api_sale/__init__.py:117-126 | non-object container or missing key gives null; a scalar is returned as is; an empty list gives null |
| Json.SafeFirstValueSingleAsList | pospos_api_sale/__init__.py:119-123 | a single non-list item reads the same as a list whose first item it is |
| Json.SafeFirstValueUnwrapsRecord | pospos_api_sale/__init__.py:122-123 | a record with a `value` field is unwrapped to it, bare or as a list head |
| Numerals.ShowInt | pospos_api_sale/__init__.py:257 | `str(n)` is a non-empty digit string, with a leading '-' exactly for negative n |
| Numerals.TrimStart | pospos_api_sale/__init__.py:70 | the result is a suffix with no leading whitespace, and only whitespace was dropped |
| Numerals.TrimEnd | pospos_api_sale/__init__.py:70 | the result is a prefix with no trailing whitespace, and only whitespace was dropped |
| Numerals.Strip | pospos_api_sale/__init__.py:70 | `strip()` leaves nothing exactly when the text is all whitespace; what it leaves neither starts nor ends with whitespace |
| Numerals.ParseDecimal | pospos_api_sale/__init__.py:70 | a numeral reads only when its stripped text starts with a digit, a sign or a point; only a leading '-' makes it negative; without a point it has no fractional places |
| Numerals.ParseInt | pospos_api_sale/__init__.py:267 | `int(s)` fails on text with a point; on point-free text it succeeds exactly when the decimal reading does, with the same value |
| Numerals.Scaled | pospos_api_sale/__init__.py:257 | a value with no more decimal places than the target scale always converts, and zero converts to zero |
| Numerals.ScaledIsExact | pospos_api_sale/__init__.py:290 | the conversion to a whole count yields v exactly when v × 10^places equals units × 10^scale, and nothing when no such v exists |
| Numerals.Numeral | pospos_api_sale/__init__.py:257 | `float(s) if "." in s else int(s)`: without a point it is exactly `int(s)`; with a point, text that is no numeral fails |
| Numerals.NumeralExact | pospos_api_sale/__init__.py:257 | with a point, the reading is v exactly when the text's value is the whole number v |
| Numerals.Str | pospos_api_sale/__init__.py:168 | `str(v)`: a string is itself, null is "None", a number is its decimal digits; only lists and objects have no modelled text |
| Numerals.StrDigit | pospos_api_sale/__init__.py:244 | a one-digit text is `str` of exactly that string and that number |
| Numerals.StrNumerals | pospos_api_sale/__init__.py:267 | the text of a number reads back as that number, and "None" reads as nothing |
| Numerals.TypeIs | pospos_api_sale/__init__.py:244 | `str(v) == code`: a string matches only itself, containers never match, and a one-digit code is matched by exactly that string and that number |
| Numerals.IntOf | pospos_api_sale/__init__.py:267 | `int(str(v))`: a number is itself, a string is read by `int`, null and containers fail |
| Numerals.NumeralOf | pospos_api_sale/__init__.py:257 | the `fv` parse: a number is itself, a string is read as a numeral, null and containers fail |
| Numerals.EnsureNum | pospos_api_sale/__init__.py:154-163 | numbers pass through; null gives the caller's default |
| Numerals.BahtOf | pospos_api_sale/__init__.py:97 | `float(v)` in satang: a number of baht is 100 × it; null and containers fail; text that is no numeral fails; a numeral with at most two decimals always converts |
| Numerals.BahtOfExact | pospos_api_sale/__init__.py:97 | baht text converts to x satang exactly when its value is x / 100 |
| Numerals.CountOf | pospos_api_sale/__init__.py:178-196 | the piece count `int(ensure_num(v, 0))`: a number is itself, null and containers count 0, text that is no decimal numeral counts 0, text with a point counts as its value truncated toward zero, and whole values agree with `ensure_num` |
| Numerals.Quot10 | pospos_api_sale/__init__.py:193 | division by 10 rounding toward zero: for u ≥ 0 the quotient q has 10q ≤ u < 10q + 10, for u < 0 it has 10q − 10 < u ≤ 10q |
| Numerals.Truncate | pospos_api_sale/__init__.py:193-196 | `int()` of a decimal: a whole value is itself, and truncation keeps the sign (non-negative stays non-negative, non-positive stays non-positive) |
| Numerals.TruncateWhole | pospos_api_sale/__init__.py:193 | `int()` of a whole value changes nothing |
| Numerals.TruncateBounds | pospos_api_sale/__init__.py:193 | `int()` of a non-negative value is its whole part t: t × 10^places ≤ units < (t + 1) × 10^places |
| Numerals.TruncateNegates | pospos_api_sale/__init__.py:193 | `int()` rounds toward zero: truncating a negative value negates the truncation of its magnitude |
| Numerals.CountOfTenths | pospos_api_sale/__init__.py:193 | a piece count with one decimal is truncated: "2.7" counts 2 |
| Numerals.ParseIntShowInt | pospos_api_sale/__init__.py:267 | `int(str(n)) == n` for every integer |
| Numerals.NotANumeral | pospos_api_sale/__init__.py:162 | text starting with a letter (such as "None") is no numeral |
| Numerals.EnsureNumIsNumeralOf | pospos_api_sale/__init__.py:154-163 | the inventory's `ensure_num` and the cash-in `fv` parse agree on every JSON value |
| Numerals.ParseDecimalStripped | pospos_api_sale/__init__.py:70 | surrounding whitespace never changes a reading: `float(s)` and `float(s.strip())` agree for every text |
| Numerals.StripIdempotent | pospos_api_sale/__init__.py:70 | stripping an already stripped text changes nothing |
| Numerals.SameStripSameReading | pospos_api_sale/__init__.py:70 | two texts with the same stripped form read alike |
| Numerals.ParseDecimalNegated | pospos_api_sale/__init__.py:70 | a leading '-' negates the value of a digit-led numeral and keeps its places; unreadable text stays unreadable |
| Numerals.ParseDigits | pospos_api_sale/__init__.py:70 | a non-empty digit string reads as its value with no fractional places |
| Numerals.ParseTenths | pospos_api_sale/__init__.py:70 | digits, a point and one digit read as tenths: "12.5" is 125 tenths |
| Numerals.NumeralOfTenths | pospos_api_sale/__init__.py:290 | a numeral with one decimal is a count of satang exactly when the decimal is 0 ("500.0" is 500, "12.5" has no reading) |
| Numerals.BahtOfTenths | pospos_api_sale/__init__.py:97 | baht with one decimal convert exactly to satang ("1.5" is 150) |
| Config.ResolveTimeout | pospos_api_sale/__init__.py:66-74 | the rule the comment at line 65 states: the timeout is always positive and finite, the setting when it is a positive numeral, else 300 |
| Config.UnsetTimeoutIsDefault | pospos_api_sale/__init__.py:69 | an unset variable gives 300 seconds |
| Config.NonPositiveTimeoutIsDefault | pospos_api_sale/__init__.py:72 | any zero or negative integer setting is coerced to 300 |
| Config.GarbageTimeoutIsDefault | pospos_api_sale/__init__.py:73-74 | every setting `float()` rejects gives 300, as written and under the stated rule |
| Config.PositiveTimeoutIsKept | pospos_api_sale/__init__.py:72 | any positive integer setting is kept as written |
| Config.ParseFloat | pospos_api_sale/__init__.py:70 | `float(s)`: every decimal numeral reads as itself; NaN comes only from text that is no decimal numeral |
| Config.LowerAll | pospos_api_sale/__init__.py:70 | case folding keeps the length and lowers each character in place |
| Config.SignedWordNotDecimal | pospos_api_sale/__init__.py:70 | an optionally signed word that starts and ends with a letter is no decimal numeral |
| Config.ParseFloatWord | pospos_api_sale/__init__.py:70 | on an optionally signed letter word `float()` looks only at the case-folded word: "inf"/"infinity" give an infinity of the sign, "nan" gives NaN, anything else fails |
| Config.ParseFloatInfinity | pospos_api_sale/__init__.py:70 | every case variant of "inf" or "infinity", with an optional sign, reads as an infinity of that sign |
| Config.ParseFloatNan | pospos_api_sale/__init__.py:70 | every case variant of "nan", with an optional sign, reads as NaN |
| Config.ParseFloatRejectsWord | pospos_api_sale/__init__.py:70 | every other optionally signed letter word is rejected |
| Config.InfText | pospos_api_sale/__init__.py:70 | `float("inf")` is positive infinity, and "inf" is no decimal numeral |
| Config.NanText | pospos_api_sale/__init__.py:70 | `float("nan")` is NaN, and "nan" is no decimal numeral |
| Config.ResolveTimeoutAsWritten | pospos_api_sale/__init__.py:66-74 | the code as written: text `float()` rejects gives 300, every finite result is positive, NaN is kept because `nan <= 0` is false, +inf is kept, and -inf gives 300 |
| Config.AsWrittenAgreesOnDecimals | pospos_api_sale/__init__.py:70-72 | on decimal settings the code and the stated rule give the same timeout |
| Config.InfiniteTimeoutAsWritten | pospos_api_sale/__init__.py:70-72 | as written, HTTP_TIMEOUT_SECONDS=inf gives an infinite timeout |
| Config.NanTimeoutAsWritten | pospos_api_sale/__init__.py:70-72 | as written, HTTP_TIMEOUT_SECONDS=nan gives NaN, since `nan <= 0` is false |
| Config.InfiniteTimeoutIsDefault | pospos_api_sale/__init__.py:65 | under the stated rule "inf" and "nan" both give 300 |
| Inventory.MediaOf | pospos_api_sale/__init__.py:189 | type code 1 iff fv ≥ 2000, type code 2 iff fv < 2000 |
| Inventory.SlotOf | pospos_api_sale/__init__.py:191-196 | the `qty` branch is taken exactly for type "3" or 3, the `inStacker` branch exactly for "4" or 4 |
| Inventory.CashList | pospos_api_sale/__init__.py:140-150 | a payload that is not an object has no cash list |
| Inventory.CashListFound | pospos_api_sale/__init__.py:139-150 | the cash list is found exactly when every step of `Body[0].InventoryResponse[0].Cash` has the expected shape, and it is the list found there |
| Inventory.SlotReadings | pospos_api_sale/__init__.py:165-170 | a slot that is not an object gives no readings; every reading of an object slot carries the slot its type names |
| Inventory.Readings | pospos_api_sale/__init__.py:165-178 | every reading comes from one of the cash list's slots |
| Inventory.ReadingsAppend | pospos_api_sale/__init__.py:165 | the readings of a cash list are taken slot by slot: `Readings(a + b) == Readings(a) + Readings(b)` |
| Inventory.SlotDropped | pospos_api_sale/__init__.py:165-167 | a slot that is not an object, appended to a list, adds no reading |
| Inventory.NonObjectSlotIgnored | pospos_api_sale/__init__.py:165-167 | a slot that is not an object yields nothing wherever it stands |
| Inventory.DenomReadings | pospos_api_sale/__init__.py:171-178 | at most one reading per record, each carrying its slot |
| Inventory.DenomReadingsAppend | pospos_api_sale/__init__.py:171 | the readings of a slot are taken record by record |
| Inventory.DenomOne | pospos_api_sale/__init__.py:171-178 | a single record yields one reading of its face value and truncated first `Piece` value when it is an object whose `fv` reads, and none otherwise |
| Inventory.DenomDropped | pospos_api_sale/__init__.py:172-176 | a skipped record appended to a list adds no reading |
| Inventory.DenomKept | pospos_api_sale/__init__.py:171-178 | an object record whose `fv` reads yields exactly one reading in its place: that face value and the truncated first `Piece` value |
| Inventory.DenomSkipped | pospos_api_sale/__init__.py:172-176 | a record that is not an object, or whose `fv` does not read, yields nothing wherever it stands |
| Inventory.Fresh | pospos_api_sale/__init__.py:180-190 | a new entry carries the face value, qty 0, inStacker 0, and type code 1 iff fv ≥ 2000, else 2 |
| Inventory.Find | pospos_api_sale/__init__.py:180 | the index is the first entry with that face value, or the length when there is none |
| Inventory.Count | pospos_api_sale/__init__.py:191-196 | a reading adds its pieces to `qty` under type "3", to `inStacker` under type "4", and changes nothing else |
| Inventory.Tally | pospos_api_sale/__init__.py:180-196 | the list grows exactly when the face value is new, and afterwards that face value has an entry |
| Inventory.Group | pospos_api_sale/__init__.py:165-196 | never more entries than readings |
| Inventory.Total | pospos_api_sale/__init__.py:191-196 | the reference sum of pieces per face value and slot; 0 when no reading has that face value |
| Inventory.TotalCons | pospos_api_sale/__init__.py:191-196 | the reference sum taken from the front equals the sum taken from the back |
| Inventory.Insert | pospos_api_sale/__init__.py:200 | insertion adds exactly the one element to the multiset of entries |
| Inventory.InsertNonIncreasing | pospos_api_sale/__init__.py:200 | insertion keeps a list non-increasing in face value |
| Inventory.SortDesc | pospos_api_sale/__init__.py:199-200 | the sort is a permutation and is non-increasing in face value |
| Inventory.InsertDescending | pospos_api_sale/__init__.py:200 | inserting a new face value into a strictly descending list keeps it strictly descending |
| Inventory.SortDescDescending | pospos_api_sale/__init__.py:198-200 | with one entry per face value the sorted output is strictly descending |
| Inventory.TallyExisting | pospos_api_sale/__init__.py:180-196 | a reading whose face value has an entry adds its pieces there and keeps one entry per face value with summed counts |
| Inventory.TallyFresh | pospos_api_sale/__init__.py:180-196 | a reading with an unseen face value appends a zero-count entry of the right media class and counts into it |
| Inventory.GroupCorrect | pospos_api_sale/__init__.py:165-196 | one entry per face value read; its qty is the sum of type-"3" pieces and its inStacker the sum of type-"4" pieces for that face value; its media class follows fv |
| Inventory.MapInventory | pospos_api_sale/__init__.py:129-203 | empty for a malformed or missing path or an empty Cash list; otherwise a strictly descending permutation of the grouped entries |
| Inventory.InventoryCorrect | pospos_api_sale/__init__.py:165-201 | the output's face values are exactly those read, any slot type creating its entry; each entry carries its summed counts; highest first |
| Inventory.DispensableSlotReadings | pospos_api_sale/__init__.py:168-178 | a type-"3" slot with a single Denomination object yields one dispensable reading |
| Inventory.StackerSlotReadings | pospos_api_sale/__init__.py:168-178 | a type-"4" slot with a Denomination list yields one stacker reading |
| Inventory.ExampleCashList | pospos_api_sale/__init__.py:139-164 | the worked payload's cash list is found at `Body[0].InventoryResponse[0].Cash` |
| Inventory.ExampleReadings | pospos_api_sale/__init__.py:165-178 | the worked payload's two slots give a dispensable and a stacker reading of fv 2000 |
| Inventory.ExampleGroup | pospos_api_sale/__init__.py:180-196 | the two readings merge into one entry with qty 5 and inStacker 12 |
| Inventory.ExampleInventory | pospos_api_sale/__init__.py:129-201 | fv 2000 with 5 pieces under "3" and 12 under "4" gives one banknote entry, qty 5, inStacker 12 |
| Cashin.ChangeResponse | pospos_api_sale/__init__.py:213-233 | a payload that is not an object yields nothing; a located change response is a non-empty object |
| Cashin.ChangeResponseFound | pospos_api_sale/__init__.py:213-233 | the change response is found exactly when every step of `response.change_response.Body[0].ChangeResponse[0]` has the expected shape and both list heads are non-empty objects, and it is the object found there |
| Cashin.Accepted | pospos_api_sale/__init__.py:243-245 | a cash entry counts exactly when its type is absent or null, the string "1" or the number 1 |
| Cashin.PieceCount | pospos_api_sale/__init__.py:264-275 | a piece that is not an object counts 0; a nonzero count is `int(str(value))` of the piece's value; a value that reads counts as read |
| Cashin.PieceSum | pospos_api_sale/__init__.py:260-275 | the pieces of a denomination sum over `Piece` read as a list, a single object counting as a one-element list |
| Cashin.DenomSatang | pospos_api_sale/__init__.py:252-277 | a record that is not an object or whose `fv` does not read adds 0; otherwise it adds fv × the piece sum |
| Cashin.SumCounts | pospos_api_sale/__init__.py:262-275 | the piece loop sums 0 when every piece counts 0 |
| Cashin.SumCountsAppend | pospos_api_sale/__init__.py:262-275 | the piece sum is additive over the pieces of the list |
| Cashin.UnreadablePieceSkipped | pospos_api_sale/__init__.py:262-275 | a piece that is not an object, or whose value does not read as an integer, changes nothing wherever it stands |
| Cashin.DenomsSatang | pospos_api_sale/__init__.py:252-277 | the denomination loop sums 0 when every record adds 0 |
| Cashin.DenomsSatangAppend | pospos_api_sale/__init__.py:252-277 | the denomination total is additive over the records of the list |
| Cashin.UnparsableFvSkipped | pospos_api_sale/__init__.py:252-259 | a denomination record that is not an object or whose `fv` does not read changes nothing wherever it stands |
| Cashin.ParsedDenomAdds | pospos_api_sale/__init__.py:257-277 | a record whose `fv` reads adds fv × its piece sum wherever it stands |
| Cashin.CashSatang | pospos_api_sale/__init__.py:239-277 | a cash entry that is not an object or not accepted adds 0; an accepted entry adds its denominations, a single Denomination object counting as a list |
| Cashin.CashTotal | pospos_api_sale/__init__.py:236-277 | the cash total is 0 when no entry contributes |
| Cashin.Fallback | pospos_api_sale/__init__.py:283-294 | `Amount[0].value`: 0 when `Amount` is not a non-empty list or its head is not an object; otherwise the value's numeral reading, 0 when null or unreadable |
| Cashin.Settle | pospos_api_sale/__init__.py:279-294 | a positive cash total is the result; otherwise `Amount[0].value` is |
| Cashin.UnreadableAmountGivesZero | pospos_api_sale/__init__.py:283-294 | with a non-positive total, an `Amount` that is not a non-empty list, whose head is not an object, or whose value is null or unreadable gives 0 |
| Cashin.ExtractCashin | pospos_api_sale/__init__.py:206-296 | 0 when any step to `ChangeResponse[0]` is missing or mistyped; otherwise the settled amount |
| Cashin.CashTotalAppend | pospos_api_sale/__init__.py:238-277 | the cash total sums entry by entry over the list |
| Cashin.RejectedCashIgnored | pospos_api_sale/__init__.py:240-245 | a Cash entry that is not an object, or whose type is present and not "1", changes nothing wherever it stands |
| Cashin.AcceptedCash | pospos_api_sale/__init__.py:242-245 | the kept entries are objects with an absent or "1" type |
| Cashin.CashTotalOfAccepted | pospos_api_sale/__init__.py:238-277 | the total over a list equals the total over its accepted entries |
| Cashin.SinglePieceAsList | pospos_api_sale/__init__.py:260-275 | a single Piece object counts as a one-element list |
| Cashin.SingleDenominationAsList | pospos_api_sale/__init__.py:246-251 | a single Denomination object counts as a one-element list |
| Cashin.AmountIgnoredWhenCashPositive | pospos_api_sale/__init__.py:279-283 | `Amount` is consulted only when the cash total is not positive |
| Cashin.NoFallbackGivesZero | pospos_api_sale/__init__.py:283-294 | a non-positive total with no `Amount` gives 0 |
| Cashin.EnvelopeIsFound | pospos_api_sale/__init__.py:216-233 | a non-empty change response at `response.change_response.Body[0].ChangeResponse[0]` is found |
| Cashin.PieceListExample | pospos_api_sale/__init__.py:262-269 | a Piece list holding one record of value k counts k pieces |
| Cashin.DenomExample | pospos_api_sale/__init__.py:252-277 | one denomination of face value f with k pieces is f × k satang |
| Cashin.TypeOneCashExample | pospos_api_sale/__init__.py:239-277 | a type-"1" entry contributes its denominations |
| Cashin.ThreeCoinsExample | pospos_api_sale/__init__.py:235-280 | three 1-baht coins under type "1" give 300 satang |
| Cashin.AmountTextReads | pospos_api_sale/__init__.py:283-291 | `Amount: [{value: str(n)}]` reads as n satang for every integer n |
| Cashin.AmountFallbackExample | pospos_api_sale/__init__.py:282-291 | with no Cash, `Amount: [{value: str(n)}]` gives n satang for every integer n |
| Snapshot.InsertedField | pospos_api_sale/__init__.py:92-96 | a non-null top-level `inserted_amount_baht` is used; otherwise the one under `parsed` when `parsed` is an object, else null |
| Snapshot.InsertedSatang | pospos_api_sale/__init__.py:87-99 | 0 for a snapshot that is not an object; otherwise the converted amount, 0 when it does not convert |
| Snapshot.TopLevelWins | pospos_api_sale/__init__.py:92-93 | a top-level inserted amount is used as is |
| Snapshot.ParsedIsFallback | pospos_api_sale/__init__.py:93-96 | without a top-level amount the one under `parsed` is used |
| Order.Truthy | pospos_api_sale/__init__.py:377 | `or {}` replaces exactly null, 0, "", [] and {} |
| Order.RequestedAmount | pospos_api_sale/__init__.py:377-382 | the request fails exactly for a truthy non-object body; an object's missing or unconvertible amount reads as 0 |
| Order.Create | pospos_api_sale/__init__.py:372-394 | the flags and the accepted amount are reset; the amount is set on success and kept on failure |
| Order.Read | pospos_api_sale/__init__.py:415-435 | cancelled is reported iff the flag is set, with cash-in 0 and the record cleared; succeeded iff acked and not cancelled, clearing only the ack; cash-in is the accepted amount when nonzero, else the snapshot |
| Order.Cancel | pospos_api_sale/__init__.py:454 | the cancelled flag is set and nothing else changes |
| Order.AcceptedAmount | pospos_api_sale/__init__.py:326-331 | the amount a reply body reports is the extractor's reading of it, 0 for a body that is not an object |
| Order.Complete | pospos_api_sale/__init__.py:324-335 | a reply with `resp.ok` (any status below 400) sets the ack and records a positive amount; a failure changes nothing |
| Order.Apply | pospos_api_sale/__init__.py:330-335 | every transition keeps the accepted amount non-negative |
| Order.Run | pospos_api_sale/__init__.py:371-454 | no history from a valid record makes the accepted amount negative |
| Order.Ordered | pospos_api_sale/__init__.py:377-382 | a nonzero order amount is one that some readable create requested |
| Order.PendingCancel | pospos_api_sale/__init__.py:422-428 | a cancel is pending exactly when some cancel is followed only by cash-in completions |
| Order.PendingAck | pospos_api_sale/__init__.py:430-433 | an ack is pending exactly when some answered completion is followed only by cancels and completions |
| Order.Credited | pospos_api_sale/__init__.py:330-335 | the credited amount is never negative, and a nonzero one was reported by some answered completion |
| Order.HistoryStep | pospos_api_sale/__init__.py:371-454 | one event moves the history's record exactly as the transition moves the state |
| Order.RunMatchesHistory | pospos_api_sale/__init__.py:373-375 | after any history the record equals the last readable create's amount, the pending cancel, the pending ack and the last uncleared positive amount |
| Order.ReadAfterHistory | pospos_api_sale/__init__.py:419-435 | what a status read reports after any history, in terms of that history alone |
| Order.CancelledReportedOnce | pospos_api_sale/__init__.py:422-428 | cancel then two reads: "cancelled" with cash-in 0, then "processing" with the snapshot amount |
| Order.SecondReadProcessing | pospos_api_sale/__init__.py:422-435 | the second of two consecutive reads always reports "processing" |
| Order.CreatedOrderProcessing | pospos_api_sale/__init__.py:373-393 | a new order reads "processing" with its own amount and the snapshot cash-in |
| Order.AnsweredOrderSucceeds | pospos_api_sale/__init__.py:330-335 | create, answered cash-in, read: "succeeded" with the accepted amount when positive, else the snapshot |
| Order.LateAnswerAfterCancelSucceeds | pospos_api_sale/__init__.py:324-335 | an answer arriving after a reported cancellation makes the next read say "succeeded" |

## Left out

- HTTP plumbing is not modelled: the Flask app, blueprint, CORS, response logging and the one-second delay. The `requests` calls are absent too; their results are inputs. A `/socket/latest` or `/cashin` body that is missing or not JSON is null.
- Threads are not modelled. Cash-in completion is one atomic event; interleavings and the unguarded races on the globals are out of scope.
- Template loading from disk is left out, and so are its 500 answers.
- Config.ResolveTimeoutAsWritten: a numeral setting beyond the double range is returned as its exact finite value, while `float()` at line 70 reads it as an infinite timeout, because the model's decimals are unbounded.
- `time.time()` timestamps and environment reads are left out. `Config.ResolveTimeout` and `Config.ResolveTimeoutAsWritten` take the variable's value as a parameter.
- `get_balances` is not modelled: substituting the template default when the mapped list is empty is handler plumbing.
- The health endpoint is not modelled.
- Floating point is not modelled. JSON numbers are integers, and all amounts are whole satang.
- Float overflow of JSON numbers is not modelled, because integers are unbounded here. `float()` of a Python int beyond the double range raises OverflowError. At line 97 that is caught and the inserted amount reads as 0. At line 291 `float(satang)` of a huge integer `Amount` value is caught too, so the amount reads as 0. At line 277 it escapes the inner `try`, so the whole cash-in extraction gives 0. At line 181 the inventory mapper returns an empty list. At line 380 it is not among the caught exceptions, so create answers 500 after the reset.
- Numeral text beyond the double range is not modelled either: the model reads it as its exact value, while `float()` of such text returns ±inf without raising. At line 97 the inserted amount becomes inf, and when no cash-in amount is recorded `int()` at line 419 then makes status answer 500. At lines 290-291 a pointed `Amount` text gives inf baht, which lines 332-333 record, so every status read answers 500 at line 419 until the next create. At lines 257 and 277 a pointed `fv` text makes the total inf, or NaN when the piece sum is 0. In the inventory mapper a pointed `fv` or piece text makes `int()` raise at line 183, 193 or 196, so it returns an empty list. At line 380 an amount text gives an infinite order amount: `int()` at line 392 makes create answer 500, and every later status read answers 500 at line 417.
- `int()` truncation of baht in the replies is not modelled, nor the `"%.2f"` denomination label or the int/float `value` field. An entry carries its face value in satang.
- Numerals: a face value, amount or inserted amount with a fraction of a satang is treated as unparsable. The default applies in its place, although Python would keep the float. Inventory piece counts with a fraction are truncated toward zero, as `int()` does.
- Numerals: exponents, underscores, non-ASCII digits and non-ASCII whitespace are treated as unparsable. `inf` and `nan` are too, except in `Config.ResolveTimeoutAsWritten`, where `float()` of the timeout setting reads them. Elsewhere Python would read them: an order amount or inserted amount of inf or nan then makes `int()` at line 392 or 419 raise, so create or status answers 500, while the model reads such text as unparsable and replies normally.
- JSON booleans are not modelled. `ensure_num`, `float()` and the inventory `int()` would read them as 0 and 1. `str(True)` is "True", so the cash-in type tests reject them and `int(str(v))` fails on them.
- Inventory.MapInventory: face values are integer keys, so "2000" and "2000.0" share one entry. The Python module keys by `str(fv)` and would keep two.
- `Numerals.Str` does not model the text of lists and objects. Python's `repr` of them never parses as a numeral and never equals a type code, so `Str` returns None for them.

## Findings

| source | as written | input that shows it | evidently intended | confidence | as-written member | corrected member |
|---|---|---|---|---|---|---|
| pospos_api_sale/__init__.py:66-74 | `float()` accepts "inf" and "nan", and `val <= 0` is false for both, so the setting is returned unchanged | HTTP_TIMEOUT_SECONDS=inf gives an infinite timeout; HTTP_TIMEOUT_SECONDS=nan gives NaN | the comment at line 65: infinite timeouts are not allowed, so such a setting falls back to 300 seconds | not executed; medium | Config.InfiniteTimeoutAsWritten | Config.ResolveTimeout |

=== FILE: cashin.dfy ===
/** The cash-in amount extractor: the amount the device reports it accepted,
    read from the `/cashin` reply. `_extract_cashin_amount_baht` returns it in
    baht (the satang total divided by 100); this model keeps the satang
    total. */
module Cashin {
  import opened Wrappers
  import opened Json
  import opened Numerals

  /** `response.change_response.Body[0].ChangeResponse[0]`, when every step
      has the expected shape and the two list heads are non-empty objects. */
  function ChangeResponse(raw: JSON): (change: Option<map<string, JSON>>)
    ensures !raw.JObj? ==> change.None?
    ensures change.Some? ==> |change.value| > 0
  {
    match raw
    case JObj(top) =>
      (match Field(top, "response")
       case JObj(response) =>
         (match Field(response, "change_response")
          case JObj(root) =>
            var bodies := ListOf(Field(root, "Body"));
            if |bodies| == 0 || !bodies[0].JObj? || |bodies[0].fields| == 0 then None
            else
              var changes := ListOf(Field(bodies[0].fields, "ChangeResponse"));
              if |changes| == 0 || !changes[0].JObj? || |changes[0].fields| == 0 then None
              else Some(changes[0].fields)
          case _ => None)
       case _ => None)
    case _ => None
  }

  /** A cash entry counts when its `type` is absent (or null) or its text is
      "1": the string "1" or the number 1, and nothing else. */
  predicate Accepted(cashType: JSON)
    ensures Accepted(cashType) <==> cashType == JNull || cashType == JStr("1") || cashType == JNum(1)
  {
    cashType == JNull || TypeIs(cashType, "1")
  }

  /** One piece record's count: `int(str(value))`, 0 when the value is
      missing or does not parse, and 0 for a piece that is not an object. */
  function PieceCount(piece: JSON): (r: int)
    ensures !piece.JObj? ==> r == 0
    ensures r != 0 ==> piece.JObj? && IntOf(Field(piece.fields, "value")) == Some(r)
    ensures (piece.JObj? && IntOf(Field(piece.fields, "value")).Some?)
              ==> r == IntOf(Field(piece.fields, "value")).value
  {
    match piece
    case JObj(p) =>
      (match Field(p, "value")
       case JNull => 0
       case v => IntOf(v).GetOr(0))
    case _ => 0
  }

  /** The piece loop: the counts summed over a `Piece` list; 0 when no
      piece counts anything. */
  function SumCounts(pieces: seq<JSON>): (r: int)
    ensures (forall i :: 0 <= i < |pieces| ==> PieceCount(pieces[i]) == 0) ==> r == 0
  {
    if |pieces| == 0 then 0 else PieceCount(pieces[0]) + SumCounts(pieces[1..])
  }

  /** The pieces of one denomination: a list is summed, a single object
      counts as a one-element list, anything else is 0. */
  function PieceSum(pieces: JSON): (r: int)
    ensures r == SumCounts(AsList(pieces))
  {
    match pieces
    case JArr(ps) => SumCounts(ps)
    case JObj(_) => PieceCount(pieces)
    case _ => 0
  }

  /** One denomination's satang: face value times piece total; a record that
      is not an object or whose `fv` does not parse adds nothing. */
  function DenomSatang(denom: JSON): (r: int)
    ensures !denom.JObj? || NumeralOf(Field(denom.fields, "fv")).None? ==> r == 0
    ensures (denom.JObj? && NumeralOf(Field(denom.fields, "fv")).Some?)
              ==> r == NumeralOf(Field(denom.fields, "fv")).value * SumCounts(AsList(Field(denom.fields, "Piece")))
  {
    match denom
    case JObj(d) =>
      (match NumeralOf(Field(d, "fv"))
       case Some(fv) => fv * PieceSum(Field(d, "Piece"))
       case None => 0)
    case _ => 0
  }

  /** The denomination loop: the satang summed over a `Denomination` list;
      0 when no record contributes. */
  function DenomsSatang(denoms: seq<JSON>): (r: int)
    ensures (forall i :: 0 <= i < |denoms| ==> DenomSatang(denoms[i]) == 0) ==> r == 0
  {
    if |denoms| == 0 then 0 else DenomSatang(denoms[0]) + DenomsSatang(denoms[1..])
  }

  /** One cash entry's satang; entries that are not objects or whose type
      is present and not "1" add nothing, and an accepted entry adds its
      denominations, a single Denomination object counting as a list. */
  function CashSatang(cash: JSON): (r: int)
    ensures !cash.JObj? || !Accepted(Field(cash.fields, "type")) ==> r == 0
    ensures (cash.JObj? && Accepted(Field(cash.fields, "type")))
              ==> r == DenomsSatang(AsList(Field(cash.fields, "Denomination")))
  {
    match cash
    case JObj(c) =>
      if Accepted(Field(c, "type")) then DenomsSatang(AsList(Field(c, "Denomination"))) else 0
    case _ => 0
  }

  /** The preferred total: the sum over a `Cash` list, 0 when no entry
      contributes. */
  function CashTotal(cashes: seq<JSON>): (r: int)
    ensures (forall i :: 0 <= i < |cashes| ==> CashSatang(cashes[i]) == 0) ==> r == 0
  {
    if |cashes| == 0 then 0 else CashSatang(cashes[0]) + CashTotal(cashes[1..])
  }

  /** The fallback: `Amount[0].value` in satang. It is 0 when `Amount` is
      not a list or is empty, when its head is not an object, and when the
      value is null or does not parse. */
  function Fallback(change: map<string, JSON>): (r: int)
    ensures !Field(change, "Amount").JArr? || Field(change, "Amount").items == [] ==> r == 0
    ensures Field(change, "Amount").JArr? && |Field(change, "Amount").items| > 0 ==>
      var head := Field(change, "Amount").items[0];
      && (!head.JObj? ==> r == 0)
      && (head.JObj? ==> r == NumeralOf(Field(head.fields, "value")).GetOr(0))
  {
    var amounts := ListOf(Field(change, "Amount"));
    if |amounts| == 0 then 0
    else
      match amounts[0]
      case JObj(a) =>
        (match Field(a, "value")
         case JNull => 0
         case v => NumeralOf(v).GetOr(0))
      case _ => 0
  }

  /** The `Cash` entries of a change response; anything but a list has none. */
  function CashOf(change: map<string, JSON>): seq<JSON> {
    ListOf(Field(change, "Cash"))
  }

  /** The amount read from a located change response: the cash total when it
      is positive, the `Amount` fallback otherwise. */
  function Settle(change: map<string, JSON>): (r: int)
    ensures CashTotal(CashOf(change)) > 0 ==> r == CashTotal(CashOf(change))
    ensures CashTotal(CashOf(change)) <= 0 ==> r == Fallback(change)
  {
    var total := CashTotal(CashOf(change));
    if total > 0 then total else Fallback(change)
  }

  /** `_extract_cashin_amount_baht`, in satang: any structural mismatch on
      the way to `ChangeResponse[0]` gives 0. */
  function ExtractCashin(raw: JSON): (r: int)
    ensures ChangeResponse(raw).None? ==> r == 0
    ensures ChangeResponse(raw).Some? ==> r == Settle(ChangeResponse(raw).value)
    ensures !raw.JObj? ==> r == 0
  {
    match ChangeResponse(raw)
    case None => 0
    case Some(change) => Settle(change)
  }

  // ---------------------------------------------------------------------
  // Lemmas

  /** The cash total is additive over the entries of the list. */
  lemma {:induction false} CashTotalAppend(a: seq<JSON>, b: seq<JSON>)
    ensures CashTotal(a + b) == CashTotal(a) + CashTotal(b)
  {
    if |a| == 0 {
      assert a + b == b;
    } else {
      assert (a + b)[1..] == a[1..] + b;
      CashTotalAppend(a[1..], b);
    }
  }

  /** The piece total is additive over the records of the list. */
  lemma {:induction false} SumCountsAppend(a: seq<JSON>, b: seq<JSON>)
    ensures SumCounts(a + b) == SumCounts(a) + SumCounts(b)
  {
    if |a| == 0 {
      assert a + b == b;
    } else {
      assert (a + b)[1..] == a[1..] + b;
      SumCountsAppend(a[1..], b);
    }
  }

  /** A piece that is not an object, or whose value is null or does not
      read, counts nothing wherever it stands. */
  lemma UnreadablePieceSkipped(a: seq<JSON>, p: JSON, b: seq<JSON>)
    requires !p.JObj? || IntOf(Field(p.fields, "value")).None?
    ensures SumCounts(a + [p] + b) == SumCounts(a + b)
  {
    SumCountsAppend(a + [p], b);
    SumCountsAppend(a, [p]);
    SumCountsAppend(a, b);
    assert [p][1..] == [];
  }

  /** The denomination total is additive over the records of the list. */
  lemma {:induction false} DenomsSatangAppend(a: seq<JSON>, b: seq<JSON>)
    ensures DenomsSatang(a + b) == DenomsSatang(a) + DenomsSatang(b)
  {
    if |a| == 0 {
      assert a + b == b;
    } else {
      assert (a + b)[1..] == a[1..] + b;
      DenomsSatangAppend(a[1..], b);
    }
  }

  /** A denomination record that is not an object, or whose `fv` does not
      parse, is skipped wherever it stands. */
  lemma UnparsableFvSkipped(a: seq<JSON>, d: JSON, b: seq<JSON>)
    requires !d.JObj? || NumeralOf(Field(d.fields, "fv")).None?
    ensures DenomsSatang(a + [d] + b) == DenomsSatang(a + b)
  {
    DenomsSatangAppend(a + [d], b);
    DenomsSatangAppend(a, [d]);
    DenomsSatangAppend(a, b);
  }

  /** A denomination record with a parsed face value adds face value times
      its piece total, wherever it stands. */
  lemma ParsedDenomAdds(a: seq<JSON>, d: JSON, b: seq<JSON>, fv: int)
    requires d.JObj? && NumeralOf(Field(d.fields, "fv")) == Some(fv)
    ensures DenomsSatang(a + [d] + b)
         == DenomsSatang(a) + fv * SumCounts(AsList(Field(d.fields, "Piece"))) + DenomsSatang(b)
  {
    DenomsSatangAppend(a + [d], b);
    DenomsSatangAppend(a, [d]);
  }

  /** A cash entry whose type is present and not "1" (or that is not an
      object at all) changes nothing, wherever it stands in the list. */
  lemma RejectedCashIgnored(a: seq<JSON>, cash: JSON, b: seq<JSON>)
    requires !cash.JObj? || !Accepted(Field(cash.fields, "type"))
    ensures CashTotal(a + [cash] + b) == CashTotal(a + b)
  {
    CashTotalAppend(a + [cash], b);
    CashTotalAppend(a, [cash]);
    CashTotalAppend(a, b);
  }

  /** The accepted cash entries of a list, in order. */
  function AcceptedCash(cashes: seq<JSON>): (r: seq<JSON>)
    ensures |r| <= |cashes|
    ensures forall c :: c in r ==> c.JObj? && Accepted(Field(c.fields, "type"))
  {
    if |cashes| == 0 then []
    else if cashes[0].JObj? && Accepted(Field(cashes[0].fields, "type")) then [cashes[0]] + AcceptedCash(cashes[1..])
    else AcceptedCash(cashes[1..])
  }

  /** Only accepted entries contribute: the total over the list is the total
      over its accepted entries. */
  lemma {:induction false} CashTotalOfAccepted(cashes: seq<JSON>)
    ensures CashTotal(cashes) == CashTotal(AcceptedCash(cashes))
  {
    if |cashes| > 0 {
      CashTotalOfAccepted(cashes[1..]);
      if cashes[0].JObj? && Accepted(Field(cashes[0].fields, "type")) {
        assert ([cashes[0]] + AcceptedCash(cashes[1..]))[1..] == AcceptedCash(cashes[1..]);
      }
    }
  }

  /** A single Piece object counts as a one-element list. */
  lemma SinglePieceAsList(piece: map<string, JSON>)
    ensures PieceSum(JObj(piece)) == PieceSum(JArr([JObj(piece)]))
  {
    var single := [JObj(piece)];
    assert single[1..] == [];
    assert SumCounts(single) == PieceCount(single[0]) + SumCounts(single[1..]);
  }

  /** A single Denomination object counts as a one-element list. */
  lemma SingleDenominationAsList(cash: map<string, JSON>, denom: map<string, JSON>)
    ensures CashSatang(JObj(cash["Denomination" := JObj(denom)]))
         == CashSatang(JObj(cash["Denomination" := JArr([JObj(denom)])]))
  {
  }

  /** `Amount` is consulted only when the cash total is not positive: with a
      positive total, replacing `Amount` by anything leaves the result alone. */
  lemma AmountIgnoredWhenCashPositive(change: map<string, JSON>, amount: JSON)
    requires CashTotal(CashOf(change)) > 0
    ensures Settle(change["Amount" := amount]) == Settle(change)
  {
  }

  /** With a non-positive total, an `Amount` that is not a non-empty list, or
      whose head is not an object, or whose value is null or unparsable,
      gives 0. */
  lemma UnreadableAmountGivesZero(change: map<string, JSON>)
    requires CashTotal(CashOf(change)) <= 0
    requires var amounts := ListOf(Field(change, "Amount"));
      amounts == [] || !amounts[0].JObj? || NumeralOf(Field(amounts[0].fields, "value")).None?
    ensures Settle(change) == 0
  {
  }

  /** With a non-positive total and no `Amount`, the result is 0. */
  lemma NoFallbackGivesZero(change: map<string, JSON>)
    requires CashTotal(CashOf(change)) <= 0 && "Amount" !in change
    ensures Settle(change) == 0
  {
  }

  /** The change response is found exactly along the documented path, each
      step an object or a non-empty list as expected, with a non-empty
      `Body[0]` and a non-empty `ChangeResponse[0]`. */
  lemma ChangeResponseFound(raw: JSON, change: map<string, JSON>)
    ensures ChangeResponse(raw) == Some(change) <==>
      exists top: map<string, JSON>, response: map<string, JSON>, root: map<string, JSON>,
             bodies: seq<JSON>, changes: seq<JSON> ::
        && raw == JObj(top)
        && Field(top, "response") == JObj(response)
        && Field(response, "change_response") == JObj(root)
        && Field(root, "Body") == JArr(bodies) && |bodies| > 0
        && bodies[0].JObj? && |bodies[0].fields| > 0
        && Field(bodies[0].fields, "ChangeResponse") == JArr(changes) && |changes| > 0
        && changes[0] == JObj(change) && |change| > 0
  {
  }

  /** The reply shape the extractor expects, around a given change response. */
  function Envelope(change: map<string, JSON>): JSON {
    JObj(map["response" := JObj(map["change_response" := JObj(map[
      "Body" := JArr([JObj(map["ChangeResponse" := JArr([JObj(change)])])])])])])
  }

  /** The extractor finds a non-empty change response where the reply shape
      puts it. */
  lemma EnvelopeIsFound(change: map<string, JSON>)
    requires |change| > 0
    ensures ExtractCashin(Envelope(change)) == Settle(change)
  {
  }

  /** A Piece list holding one record with value k counts k pieces. */
  lemma PieceListExample(k: int)
    ensures PieceSum(JArr([JObj(map["value" := JNum(k)])])) == k
  {
    var piece := JObj(map["value" := JNum(k)]);
    assert Field(piece.fields, "value") == JNum(k);
    assert IntOf(JNum(k)) == Some(k);
    assert [piece][1..] == [];
    assert SumCounts([piece]) == PieceCount(piece) + SumCounts([]);
  }

  /** A single denomination of face value f with k pieces is f * k satang. */
  lemma DenomExample(f: int, k: int)
    ensures DenomsSatang([JObj(map["fv" := JNum(f), "Piece" := JArr([JObj(map["value" := JNum(k)])])])]) == f * k
  {
    var denom := JObj(map["fv" := JNum(f), "Piece" := JArr([JObj(map["value" := JNum(k)])])]);
    assert DenomSatang(denom) == f * k by {
      PieceListExample(k);
    }
    assert [denom][1..] == [];
  }

  lemma TypeOneCashExample()
    ensures CashSatang(JObj(map["type" := JStr("1"), "Denomination" := JArr(
      [JObj(map["fv" := JNum(100), "Piece" := JArr([JObj(map["value" := JNum(3)])])])])])) == 300
  {
    DenomExample(100, 3);
  }

  /** Three pieces of 100 satang under a type-"1" entry are 300 satang. */
  lemma ThreeCoinsExample()
    ensures Settle(map["Cash" := JArr([JObj(map[
      "type" := JStr("1"),
      "Denomination" := JArr([JObj(map[
        "fv" := JNum(100),
        "Piece" := JArr([JObj(map["value" := JNum(3)])])])])])])]) == 300
  {
    TypeOneCashExample();
    var denoms := [JObj(map["fv" := JNum(100), "Piece" := JArr([JObj(map["value" := JNum(3)])])])];
    var cash := JObj(map["type" := JStr("1"), "Denomination" := JArr(denoms)]);
    assert [cash][1..] == [];
    assert CashTotal([cash]) == CashSatang(cash) + CashTotal([]);
  }

  /** `Amount: [{value: str(n)}]` reads as n satang. */
  lemma AmountTextReads(n: int)
    ensures Fallback(map["Amount" := JArr([JObj(map["value" := JStr(ShowInt(n))])])]) == n
  {
    var v := JStr(ShowInt(n));
    assert NumeralOf(v) == Some(n) by {
      StrNumerals(JNum(n));
    }
    var head := JObj(map["value" := v]);
    var change := map["Amount" := JArr([head])];
    assert Field(head.fields, "value") == v;
    assert Field(change, "Amount").items[0] == head;
  }

  /** With no `Cash`, `Amount: [{value: str(n)}]` gives n satang. */
  lemma AmountFallbackExample(n: int)
    ensures Settle(map["Amount" := JArr([JObj(map["value" := JStr(ShowInt(n))])])]) == n
  {
    var change := map["Amount" := JArr([JObj(map["value" := JStr(ShowInt(n))])])];
    assert CashOf(change) == [];
    AmountTextReads(n);
  }
}

=== FILE: config.dfy ===
/** The outbound HTTP timeout rule: the configured number of seconds when it
    is a positive numeral, 300 seconds otherwise. `ResolveTimeout` is the
    rule as the comment above `_resolve_global_http_timeout` states it (no
    infinite timeout); `ResolveTimeoutAsWritten` follows the code, whose
    `float()` also reads "inf" and "nan". */
module Config {
  import opened Wrappers
  import opened Numerals

  const DefaultTimeout: Decimal := Decimal(300, 0)

  /** `_resolve_global_http_timeout`: `env` is the HTTP_TIMEOUT_SECONDS
      setting, None when it is unset (read as "300"). The timeout is never
      zero, negative or missing: it is either the setting as written or the
      default. */
  function ResolveTimeout(env: Option<string>): (t: Decimal)
    ensures t.units > 0
    ensures t == DefaultTimeout || ParseDecimal(env.GetOr("300")) == Some(t)
    ensures (ParseDecimal(env.GetOr("300")).Some? && ParseDecimal(env.GetOr("300")).value.units > 0)
              ==> t == ParseDecimal(env.GetOr("300")).value
  {
    match ParseDecimal(env.GetOr("300"))
    case Some(d) => if d.units <= 0 then DefaultTimeout else d
    case None => DefaultTimeout
  }

  lemma NatOfThreeHundred()
    ensures NatOf("300") == 300
  {
    NatOfSnoc("", '3');
    NatOfSnoc("3", '0');
    NatOfSnoc("30", '0');
    assert "" + ['3'] == "3" && "3" + ['0'] == "30" && "30" + ['0'] == "300";
  }

  /** "300" reads as 300. */
  lemma ParseThreeHundred()
    ensures ParseDecimal("300") == Some(Decimal(300, 0))
  {
    ParseDigits("300");
    NatOfThreeHundred();
  }

  /** With the variable unset the timeout is 300 seconds. */
  lemma UnsetTimeoutIsDefault()
    ensures ResolveTimeout(None) == DefaultTimeout
  {
    ParseThreeHundred();
  }

  /** Zero and negative settings are coerced to the default. */
  lemma NonPositiveTimeoutIsDefault(n: int)
    requires n <= 0
    ensures ResolveTimeout(Some(ShowInt(n))) == DefaultTimeout
  {
    ParseIntShowInt(n);
  }

  /** Every setting `float()` rejects is coerced to the default, both as
      written and under the stated rule. */
  lemma GarbageTimeoutIsDefault(s: string)
    requires ParseFloat(s).None?
    ensures ResolveTimeoutAsWritten(Some(s)) == Finite(DefaultTimeout)
    ensures ResolveTimeout(Some(s)) == DefaultTimeout
  {
  }

  /** A positive setting is kept as written. */
  lemma PositiveTimeoutIsKept(n: int)
    requires n > 0
    ensures ResolveTimeout(Some(ShowInt(n))) == Decimal(n, 0)
  {
    ParseIntShowInt(n);
  }

  // ---------------------------------------------------------------------
  // The rule as written: `float()` also reads infinities and NaN

  /** What `float(s)` yields: a decimal, an infinity, or NaN. */
  datatype FloatValue = Finite(d: Decimal) | Infinite(negative: bool) | NotANumber

  predicate IsLetter(c: char) { 'a' <= c <= 'z' || 'A' <= c <= 'Z' }

  /** ASCII lower case: upper-case letters map to their lower-case twins,
      every other character is kept. */
  function Lower(c: char): (l: char)
    ensures 'a' <= l <= 'z' <==> IsLetter(c)
  {
    if 'A' <= c <= 'Z' then (c as int + 32) as char else c
  }

  function LowerAll(s: string): (r: string)
    ensures |r| == |s|
    ensures forall i :: 0 <= i < |s| ==> r[i] == Lower(s[i])
  {
    if |s| == 0 then [] else [Lower(s[0])] + LowerAll(s[1..])
  }

  /** `float(s)`: a decimal numeral, or after an optional sign one of the
      words "inf", "infinity" and "nan" in any case. */
  function ParseFloat(s: string): (r: Option<FloatValue>)
    ensures ParseDecimal(s).Some? ==> r == Some(Finite(ParseDecimal(s).value))
    ensures r == Some(NotANumber) ==> ParseDecimal(s).None?
  {
    match ParseDecimal(s)
    case Some(d) => Some(Finite(d))
    case None =>
      var t := Strip(s);
      var signed := |t| > 0 && (t[0] == '-' || t[0] == '+');
      var word := LowerAll(if signed then t[1..] else t);
      if word == "inf" || word == "infinity" then Some(Infinite(signed && t[0] == '-'))
      else if word == "nan" then Some(NotANumber)
      else None
  }

  /** An optional sign: "", "+" or "-". */
  predicate IsSign(sign: string) {
    |sign| == 0 || (|sign| == 1 && (sign[0] == '+' || sign[0] == '-'))
  }

  /** A sign followed by a word that starts and ends with a letter is its own
      stripped form. */
  lemma {:induction false} SignedWordStripped(sign: string, w: string)
    requires IsSign(sign) && |w| > 0 && IsLetter(w[0]) && IsLetter(w[|w| - 1])
    ensures Strip(sign + w) == sign + w
  {
    var t := sign + w;
    assert t[|t| - 1] == w[|w| - 1];
    assert t[0] == (if sign == "" then w[0] else sign[0]);
    StripNoSpace(t);
  }

  /** An optional sign followed by a word that starts and ends with a letter
      is no decimal numeral. */
  lemma {:induction false} SignedWordNotDecimal(sign: string, w: string)
    requires IsSign(sign) && |w| > 0 && IsLetter(w[0]) && IsLetter(w[|w| - 1])
    ensures ParseDecimal(sign + w) == None
  {
    var t := sign + w;
    SignedWordStripped(sign, w);
    WordNotUnsigned(w);
    if sign != "" {
      assert Strip(t)[0] == sign[0] && Strip(t)[1..] == w by {
        assert t[0] == sign[0] && t[1..] == w;
      }
    } else {
      assert Strip(t) == w && !(w[0] == '-' || w[0] == '+');
    }
  }

  /** A word starting with a letter is no unsigned numeral. */
  lemma {:induction false} WordNotUnsigned(w: string)
    requires |w| > 0 && IsLetter(w[0])
    ensures ParseUnsigned(w) == None
  {
  }

  /** `float()` on a signed word looks only at the word, case folded. */
  lemma {:induction false} ParseFloatWord(sign: string, w: string)
    requires IsSign(sign) && |w| > 0 && IsLetter(w[0]) && IsLetter(w[|w| - 1])
    ensures var word := LowerAll(w);
      ParseFloat(sign + w) ==
        if word == "inf" || word == "infinity" then Some(Infinite(sign == "-"))
        else if word == "nan" then Some(NotANumber)
        else None
  {
    var t := sign + w;
    SignedWordNotDecimal(sign, w);
    SignedWordStripped(sign, w);
    var signed := |t| > 0 && (t[0] == '-' || t[0] == '+');
    if sign != "" {
      assert t[0] == sign[0] && t[1..] == w;
      assert signed && (t[0] == '-' <==> sign == "-");
    } else {
      assert t == w && !signed;
    }
  }

  /** `float()` reads an optionally signed "inf" or "infinity", in any case,
      as an infinity of that sign. */
  lemma {:induction false} ParseFloatInfinity(sign: string, w: string)
    requires IsSign(sign)
    requires LowerAll(w) == "inf" || LowerAll(w) == "infinity"
    ensures ParseFloat(sign + w) == Some(Infinite(sign == "-"))
  {
    assert Lower(w[0]) == 'i' && 'a' <= Lower(w[|w| - 1]) <= 'z';
    ParseFloatWord(sign, w);
  }

  /** `float()` reads an optionally signed "nan", in any case, as NaN. */
  lemma {:induction false} ParseFloatNan(sign: string, w: string)
    requires IsSign(sign)
    requires LowerAll(w) == "nan"
    ensures ParseFloat(sign + w) == Some(NotANumber)
  {
    assert Lower(w[0]) == 'n' && Lower(w[2]) == 'n';
    ParseFloatWord(sign, w);
  }

  /** Every other optionally signed word is rejected by `float()`. */
  lemma {:induction false} ParseFloatRejectsWord(sign: string, w: string)
    requires IsSign(sign) && |w| > 0 && IsLetter(w[0]) && IsLetter(w[|w| - 1])
    requires LowerAll(w) != "inf" && LowerAll(w) != "infinity" && LowerAll(w) != "nan"
    ensures ParseFloat(sign + w) == None
  {
    ParseFloatWord(sign, w);
  }

  /** `_resolve_global_http_timeout` as written: `val <= 0` is false for NaN
      and for positive infinity, so both come back unchanged, while negative
      infinity is coerced to the default. */
  function ResolveTimeoutAsWritten(env: Option<string>): (t: FloatValue)
    ensures ParseFloat(env.GetOr("300")).None? ==> t == Finite(DefaultTimeout)
    ensures t.Finite? ==> t.d.units > 0
    ensures t.Infinite? ==> !t.negative
    ensures ParseFloat(env.GetOr("300")) == Some(NotANumber) ==> t == NotANumber
    ensures ParseFloat(env.GetOr("300")) == Some(Infinite(false)) ==> t == Infinite(false)
    ensures ParseFloat(env.GetOr("300")) == Some(Infinite(true)) ==> t == Finite(DefaultTimeout)
  {
    match ParseFloat(env.GetOr("300"))
    case Some(Finite(d)) => if d.units <= 0 then Finite(DefaultTimeout) else Finite(d)
    case Some(Infinite(negative)) => if negative then Finite(DefaultTimeout) else Infinite(false)
    case Some(NotANumber) => NotANumber
    case None => Finite(DefaultTimeout)
  }

  /** On decimal settings the code and the stated rule agree. */
  lemma AsWrittenAgreesOnDecimals(env: Option<string>)
    requires ParseDecimal(env.GetOr("300")).Some?
    ensures ResolveTimeoutAsWritten(env) == Finite(ResolveTimeout(env))
  {
  }

  /** `float("inf")` is positive infinity; the text is no decimal numeral. */
  lemma InfText()
    ensures ParseFloat("inf") == Some(Infinite(false)) && ParseDecimal("inf") == None
  {
    assert LowerAll("inf") == "inf";
    assert "" + "inf" == "inf";
    ParseFloatInfinity("", "inf");
  }

  /** `float("nan")` is NaN; the text is no decimal numeral. */
  lemma NanText()
    ensures ParseFloat("nan") == Some(NotANumber) && ParseDecimal("nan") == None
  {
    assert LowerAll("nan") == "nan";
    assert "" + "nan" == "nan";
    ParseFloatNan("", "nan");
  }

  /** As written, HTTP_TIMEOUT_SECONDS=inf gives an infinite timeout, which
      the comment above the function says is not allowed. */
  lemma InfiniteTimeoutAsWritten()
    ensures ResolveTimeoutAsWritten(Some("inf")) == Infinite(false)
  {
    InfText();
  }

  /** As written, HTTP_TIMEOUT_SECONDS=nan is returned as NaN. */
  lemma NanTimeoutAsWritten()
    ensures ResolveTimeoutAsWritten(Some("nan")) == NotANumber
  {
    NanText();
  }

  /** The stated rule turns both into the 300-second default. */
  lemma InfiniteTimeoutIsDefault()
    ensures ResolveTimeout(Some("inf")) == DefaultTimeout
    ensures ResolveTimeout(Some("nan")) == DefaultTimeout
  {
    InfText();
    NanText();
  }
}

=== FILE: inventory.dfy ===
/** The inventory mapper: reshapes the device's `/inventory` payload into one
    entry per face value, with the dispensable and stacker piece counts
    summed, sorted from the highest face value down. */
module Inventory {
  import opened Wrappers
  import opened Json
  import opened Numerals

  /** The entry's `type` field: 1 for banknotes, 2 for coins. */
  datatype Media = Banknote | Coin {
    function Code(): int {
      match this
      case Banknote => 1
      case Coin => 2
    }
  }

  /** Which counter a cash slot feeds: slot type "3" is the dispensable
      (changeable) count `qty`, "4" the stacker total `inStacker`; pieces
      under any other slot type are counted nowhere. */
  datatype Slot = Dispensable | Stacker | Untracked

  /** One output entry. `fv` is the face value in satang; the entry's `denom`
      label and `value` field are renderings of fv / 100 baht. */
  datatype Entry = Entry(fv: int, qty: int, inStacker: int, media: Media)

  /** One denomination record found under a cash slot. */
  datatype Reading = Reading(slot: Slot, fv: int, pieces: int)

  /** Face values from 2000 satang (20 baht) up are banknotes. */
  function MediaOf(fv: int): (m: Media)
    ensures m.Code() == 1 <==> fv >= 2000
    ensures m.Code() == 2 <==> fv < 2000
  {
    if fv >= 2000 then Banknote else Coin
  }

  /** The slot a cash entry's `type` names: "3" and 3 are dispensable, "4"
      and 4 the stacker, anything else untracked. */
  function SlotOf(slotType: JSON): (slot: Slot)
    ensures slot == Dispensable <==> slotType == JStr("3") || slotType == JNum(3)
    ensures slot == Stacker <==> slotType == JStr("4") || slotType == JNum(4)
  {
    if TypeIs(slotType, "3") then Dispensable
    else if TypeIs(slotType, "4") then Stacker
    else Untracked
  }

  // ---------------------------------------------------------------------
  // Navigation and flattening

  /** `Body[0].InventoryResponse[0].Cash` when every step has the expected
      shape and the end is a list. */
  function CashList(raw: JSON): (cash: Option<seq<JSON>>)
    ensures !raw.JObj? ==> cash.None?
  {
    match raw
    case JObj(top) =>
      var invList :=
        match Field(top, "Body")
        case JArr(bodies) =>
          if |bodies| > 0 && bodies[0].JObj? then Field(bodies[0].fields, "InventoryResponse") else JNull
        case _ => JNull;
      var inv :=
        match invList
        case JArr(invs) => if |invs| > 0 then invs[0] else JNull
        case _ => JNull;
      (match inv
       case JObj(fields) =>
         (match Field(fields, "Cash")
          case JArr(cash) => Some(cash)
          case _ => None)
       case _ => None)
    case _ => None
  }

  /** The readings of one slot's denomination records: records that are not
      objects, or whose `fv` does not parse, are skipped; the piece count is
      `int()` of the first `Piece` value, 0 when it does not parse. */
  function DenomReadings(slot: Slot, denoms: seq<JSON>): (rs: seq<Reading>)
    ensures |rs| <= |denoms|
    ensures forall r :: r in rs ==> r.slot == slot
  {
    if |denoms| == 0 then []
    else
      var rest := DenomReadings(slot, denoms[1..]);
      match denoms[0]
      case JObj(d) =>
        (match EnsureNum(Field(d, "fv"))
         case Some(fv) => [Reading(slot, fv, CountOf(SafeFirstValue(denoms[0], "Piece")))] + rest
         case None => rest)
      case _ => rest
  }

  /** The readings of one cash slot; a slot that is not an object has none,
      and every reading of an object slot carries the slot its type names. */
  function SlotReadings(cash: JSON): (rs: seq<Reading>)
    ensures !cash.JObj? ==> rs == []
    ensures forall r :: r in rs ==> cash.JObj? && r.slot == SlotOf(Field(cash.fields, "type"))
  {
    match cash
    case JObj(c) => DenomReadings(SlotOf(Field(c, "type")), AsList(Field(c, "Denomination")))
    case _ => []
  }

  /** All readings of a cash list, in payload order; each comes from one of
      the list's slots. */
  function Readings(cashes: seq<JSON>): (rs: seq<Reading>)
    ensures forall r :: r in rs ==> exists i :: 0 <= i < |cashes| && r in SlotReadings(cashes[i])
  {
    if |cashes| == 0 then [] else SlotReadings(cashes[0]) + Readings(cashes[1..])
  }

  /** The readings of a cash list are taken slot by slot, in order. */
  lemma {:induction false} ReadingsAppend(a: seq<JSON>, b: seq<JSON>)
    ensures Readings(a + b) == Readings(a) + Readings(b)
  {
    if |a| == 0 {
      assert a + b == b;
    } else {
      calc {
        Readings(a + b);
      == { assert (a + b)[0] == a[0]; }
        SlotReadings(a[0]) + Readings((a + b)[1..]);
      == { assert (a + b)[1..] == a[1..] + b; }
        SlotReadings(a[0]) + Readings(a[1..] + b);
      == { ReadingsAppend(a[1..], b); }
        SlotReadings(a[0]) + (Readings(a[1..]) + Readings(b));
      }
    }
  }

  /** A slot that is not an object, appended to a list, adds no readings. */
  lemma SlotDropped(a: seq<JSON>, c: JSON)
    requires !c.JObj?
    ensures Readings(a + [c]) == Readings(a)
  {
    ReadingsAppend(a, [c]);
    assert [c][0] == c && [c][1..] == [];
    assert Readings([c]) == SlotReadings(c) + Readings([]);
    assert Readings(a) + [] == Readings(a);
  }

  /** A slot that is not an object adds no readings, wherever it stands. */
  lemma NonObjectSlotIgnored(a: seq<JSON>, c: JSON, b: seq<JSON>)
    requires !c.JObj?
    ensures Readings(a + [c] + b) == Readings(a + b)
  {
    ReadingsAppend(a + [c], b);
    SlotDropped(a, c);
    ReadingsAppend(a, b);
  }

  /** The cash list is found exactly along `Body[0].InventoryResponse[0].Cash`,
      each step an object or a non-empty list as expected. */
  lemma CashListFound(raw: JSON, cash: seq<JSON>)
    ensures CashList(raw) == Some(cash) <==>
      exists top: map<string, JSON>, bodies: seq<JSON>, invs: seq<JSON>, inv: map<string, JSON> ::
        && raw == JObj(top)
        && Field(top, "Body") == JArr(bodies) && |bodies| > 0 && bodies[0].JObj?
        && Field(bodies[0].fields, "InventoryResponse") == JArr(invs) && |invs| > 0
        && invs[0] == JObj(inv) && Field(inv, "Cash") == JArr(cash)
  {
    if CashList(raw) == Some(cash) {
      var top := raw.fields;
      var bodies := Field(top, "Body").items;
      var invs := Field(bodies[0].fields, "InventoryResponse").items;
      var inv := invs[0].fields;
      assert raw == JObj(top) && Field(top, "Body") == JArr(bodies);
      assert Field(bodies[0].fields, "InventoryResponse") == JArr(invs) && invs[0] == JObj(inv);
    }
  }

  /** The readings of a slot are taken record by record. */
  lemma {:induction false} DenomReadingsAppend(slot: Slot, a: seq<JSON>, b: seq<JSON>)
    ensures DenomReadings(slot, a + b) == DenomReadings(slot, a) + DenomReadings(slot, b)
  {
    if |a| > 0 {
      assert (a + b)[0] == a[0];
      assert (a + b)[1..] == a[1..] + b;
      DenomReadingsAppend(slot, a[1..], b);
    } else {
      assert a + b == b;
    }
  }

  /** The readings of a single record. */
  lemma DenomOne(slot: Slot, d: JSON)
    ensures (d.JObj? && EnsureNum(Field(d.fields, "fv")).Some?)
              ==> DenomReadings(slot, [d])
                  == [Reading(slot, EnsureNum(Field(d.fields, "fv")).value, CountOf(SafeFirstValue(d, "Piece")))]
    ensures (!d.JObj? || EnsureNum(Field(d.fields, "fv")).None?) ==> DenomReadings(slot, [d]) == []
  {
    assert [d][0] == d && [d][1..] == [];
  }

  /** An object record whose `fv` reads as fv yields exactly one reading, in
      its place: that face value, with the truncated first `Piece` value. */
  lemma DenomKept(slot: Slot, a: seq<JSON>, d: JSON, b: seq<JSON>, fv: int)
    requires d.JObj? && EnsureNum(Field(d.fields, "fv")) == Some(fv)
    ensures DenomReadings(slot, a + [d] + b)
         == DenomReadings(slot, a) + [Reading(slot, fv, CountOf(SafeFirstValue(d, "Piece")))] + DenomReadings(slot, b)
  {
    var ra, rd, rb := DenomReadings(slot, a), DenomReadings(slot, [d]), DenomReadings(slot, b);
    DenomReadingsAppend(slot, a + [d], b);
    DenomReadingsAppend(slot, a, [d]);
    DenomOne(slot, d);
    assert DenomReadings(slot, a + [d] + b) == ra + rd + rb;
  }

  /** A skipped record appended to a list adds no reading. */
  lemma DenomDropped(slot: Slot, a: seq<JSON>, d: JSON)
    requires !d.JObj? || EnsureNum(Field(d.fields, "fv")).None?
    ensures DenomReadings(slot, a + [d]) == DenomReadings(slot, a)
  {
    DenomReadingsAppend(slot, a, [d]);
    DenomOne(slot, d);
    assert DenomReadings(slot, a) + [] == DenomReadings(slot, a);
  }

  /** A record that is not an object, or whose `fv` does not read, yields
      nothing, wherever it stands. */
  lemma DenomSkipped(slot: Slot, a: seq<JSON>, d: JSON, b: seq<JSON>)
    requires !d.JObj? || EnsureNum(Field(d.fields, "fv")).None?
    ensures DenomReadings(slot, a + [d] + b) == DenomReadings(slot, a + b)
  {
    DenomReadingsAppend(slot, a + [d], b);
    DenomDropped(slot, a, d);
    DenomReadingsAppend(slot, a, b);
  }

  // ---------------------------------------------------------------------
  // Grouping by face value

  /** Index of the entry for `fv`, or |es| when there is none. */
  function Find(es: seq<Entry>, fv: int): (k: nat)
    ensures k <= |es|
    ensures k < |es| ==> es[k].fv == fv
    ensures forall j :: 0 <= j < k ==> es[j].fv != fv
  {
    if |es| == 0 || es[0].fv == fv then 0 else 1 + Find(es[1..], fv)
  }

  /** Adds one reading's pieces to the counter its slot feeds; nothing else
      about the entry changes. */
  function Count(e: Entry, r: Reading): (e': Entry)
    ensures e'.fv == e.fv && e'.media == e.media
    ensures e'.qty == e.qty + (if r.slot == Dispensable then r.pieces else 0)
    ensures e'.inStacker == e.inStacker + (if r.slot == Stacker then r.pieces else 0)
  {
    match r.slot
    case Dispensable => e.(qty := e.qty + r.pieces)
    case Stacker => e.(inStacker := e.inStacker + r.pieces)
    case Untracked => e
  }

  /** The entry created on first sight of a face value: zero counts, and
      type 1 from 2000 satang up, 2 below. */
  function Fresh(fv: int): (e: Entry)
    ensures e.fv == fv && e.qty == 0 && e.inStacker == 0
    ensures e.media.Code() == (if fv >= 2000 then 1 else 2)
  {
    Entry(fv, 0, 0, MediaOf(fv))
  }

  /** One step of the grouping loop: the reading lands in the entry for its
      face value, which is created (with zero counts) on first sight. The
      list grows only then, and afterwards the face value has an entry. */
  function Tally(es: seq<Entry>, r: Reading): (t: seq<Entry>)
    ensures Find(es, r.fv) < |es| ==> |t| == |es|
    ensures Find(es, r.fv) == |es| ==> |t| == |es| + 1 && t[|es|].fv == r.fv
    ensures Find(t, r.fv) < |t|
  {
    var k := Find(es, r.fv);
    var t := if k < |es| then es[k := Count(es[k], r)] else es + [Count(Fresh(r.fv), r)];
    assert t[if k < |es| then k else |es|].fv == r.fv;
    t
  }

  /** The grouping loop over all readings, in order; never more entries
      than readings. */
  function Group(rs: seq<Reading>): (g: seq<Entry>)
    ensures |g| <= |rs|
  {
    if |rs| == 0 then [] else Tally(Group(rs[..|rs| - 1]), rs[|rs| - 1])
  }

  // ---------------------------------------------------------------------
  // Reference definitions

  /** The pieces of all readings with face value `fv` under slot kind `slot`;
      0 when no reading has that face value. */
  function Total(rs: seq<Reading>, fv: int, slot: Slot): (t: int)
    ensures (forall i :: 0 <= i < |rs| ==> rs[i].fv != fv) ==> t == 0
  {
    if |rs| == 0 then 0
    else
      var r := rs[|rs| - 1];
      Total(rs[..|rs| - 1], fv, slot) + (if r.fv == fv && r.slot == slot then r.pieces else 0)
  }

  /** The same sum taken from the front. */
  lemma {:induction false} TotalCons(rs: seq<Reading>, fv: int, slot: Slot)
    requires |rs| > 0
    ensures Total(rs, fv, slot)
         == (if rs[0].fv == fv && rs[0].slot == slot then rs[0].pieces else 0) + Total(rs[1..], fv, slot)
  {
    if |rs| > 1 {
      var init := rs[..|rs| - 1];
      TotalCons(init, fv, slot);
      assert init[1..] == rs[1..][..|rs| - 2];
      assert init[0] == rs[0];
    }
  }

  function FaceValues(rs: seq<Reading>): set<int> {
    set r | r in rs :: r.fv
  }

  function EntryValues(es: seq<Entry>): set<int> {
    set e | e in es :: e.fv
  }

  predicate DistinctValues(es: seq<Entry>) {
    forall i, j :: 0 <= i < j < |es| ==> es[i].fv != es[j].fv
  }

  /** Every entry carries the totals of its face value and its media class. */
  predicate Summarises(es: seq<Entry>, rs: seq<Reading>) {
    forall e :: e in es ==>
      && e.media == MediaOf(e.fv)
      && e.qty == Total(rs, e.fv, Dispensable)
      && e.inStacker == Total(rs, e.fv, Stacker)
  }

  predicate NonIncreasing(es: seq<Entry>) {
    forall i, j :: 0 <= i < j < |es| ==> es[i].fv >= es[j].fv
  }

  predicate Descending(es: seq<Entry>) {
    forall i, j :: 0 <= i < j < |es| ==> es[i].fv > es[j].fv
  }

  // ---------------------------------------------------------------------
  // Sorting

  /** Inserts `e` before the first entry whose face value is not above its own. */
  function Insert(e: Entry, s: seq<Entry>): (r: seq<Entry>)
    ensures multiset(r) == multiset(s) + multiset{e}
    ensures |r| == |s| + 1
  {
    if |s| == 0 || e.fv >= s[0].fv then
      [e] + s
    else
      assert s == [s[0]] + s[1..];
      [s[0]] + Insert(e, s[1..])
  }

  /** The inserted list holds `e` and the entries of `s`, nothing else. */
  lemma InsertElements(e: Entry, s: seq<Entry>)
    ensures forall x :: x in Insert(e, s) ==> x == e || x in s
  {
  }

  /** Insertion keeps a non-increasing list non-increasing. */
  lemma {:induction false} InsertNonIncreasing(e: Entry, s: seq<Entry>)
    requires NonIncreasing(s)
    ensures NonIncreasing(Insert(e, s))
  {
    if |s| > 0 && e.fv < s[0].fv {
      var t := Insert(e, s[1..]);
      InsertNonIncreasing(e, s[1..]);
      InsertElements(e, s[1..]);
      assert forall x :: x in s[1..] ==> x.fv <= s[0].fv by {
        forall x | x in s[1..] ensures x.fv <= s[0].fv {
          var j :| 0 <= j < |s[1..]| && s[1..][j] == x;
          assert s[j + 1] == x;
        }
      }
      assert forall j :: 0 <= j < |t| ==> t[j] in t;
      assert Insert(e, s) == [s[0]] + t;
    }
  }

  /** Entries that are a permutation of each other carry the same face values. */
  lemma SameValues(a: seq<Entry>, b: seq<Entry>)
    requires multiset(a) == multiset(b)
    ensures EntryValues(a) == EntryValues(b)
  {
    forall x | x in EntryValues(a) ensures x in EntryValues(b) {
      var e :| e in a && e.fv == x;
      assert e in multiset(b);
    }
    forall x | x in EntryValues(b) ensures x in EntryValues(a) {
      var e :| e in b && e.fv == x;
      assert e in multiset(a);
    }
  }

  /** Inserting a new face value into a strictly descending list keeps it
      strictly descending. */
  lemma {:induction false} InsertDescending(e: Entry, s: seq<Entry>)
    requires Descending(s) && e.fv !in EntryValues(s)
    ensures Descending(Insert(e, s))
  {
    if |s| > 0 && e.fv < s[0].fv {
      var t := Insert(e, s[1..]);
      assert e.fv !in EntryValues(s[1..]) by {
        assert forall x :: x in s[1..] ==> x in s;
      }
      InsertDescending(e, s[1..]);
      InsertElements(e, s[1..]);
      forall j | 0 <= j < |t| ensures t[j].fv < s[0].fv {
        assert t[j] in t;
        if t[j] != e {
          var i :| 0 <= i < |s[1..]| && s[1..][i] == t[j];
          assert s[i + 1] == t[j];
        }
      }
      ConsDescending(s[0], t);
      assert Insert(e, s) == [s[0]] + t;
    } else {
      if |s| > 0 {
        assert s[0] in s;
      }
      ConsDescending(e, s);
    }
  }

  /** A head above every entry of a strictly descending tail. */
  lemma ConsDescending(h: Entry, t: seq<Entry>)
    requires Descending(t) && forall j :: 0 <= j < |t| ==> t[j].fv < h.fv
    ensures Descending([h] + t)
  {
  }

  /** `items.sort(key=value, reverse=True)`: a stable sort, highest face
      value first. */
  function SortDesc(es: seq<Entry>): (r: seq<Entry>)
    ensures multiset(r) == multiset(es)
    ensures NonIncreasing(r)
  {
    if |es| == 0 then []
    else
      assert es == [es[0]] + es[1..];
      InsertNonIncreasing(es[0], SortDesc(es[1..]));
      Insert(es[0], SortDesc(es[1..]))
  }

  /** With one entry per face value the sorted list is strictly descending. */
  lemma {:induction false} SortDescDescending(es: seq<Entry>)
    requires DistinctValues(es)
    ensures Descending(SortDesc(es))
  {
    if |es| > 0 {
      var t := SortDesc(es[1..]);
      SortDescDescending(es[1..]);
      SameValues(t, es[1..]);
      assert es[0].fv !in EntryValues(es[1..]) by {
        forall x | x in es[1..] ensures x.fv != es[0].fv {
          var j :| 0 <= j < |es[1..]| && es[1..][j] == x;
          assert es[j + 1] == x;
        }
      }
      InsertDescending(es[0], t);
    }
  }

  // ---------------------------------------------------------------------
  // The mapper

  /** `_map_inventory_response`. */
  function MapInventory(raw: JSON): (r: seq<Entry>)
    ensures CashList(raw).None? ==> r == []
    ensures CashList(raw) == Some([]) ==> r == []
    ensures Descending(r)
    ensures CashList(raw).Some? ==> multiset(r) == multiset(Group(Readings(CashList(raw).value)))
  {
    match CashList(raw)
    case None => []
    case Some(cash) =>
      GroupCorrect(Readings(cash));
      SortDescDescending(Group(Readings(cash)));
      SortDesc(Group(Readings(cash)))
  }

  // ---------------------------------------------------------------------
  // Lemmas

  /** A face value that no reading carries has nothing counted for it. */
  lemma {:induction false} TotalAbsent(rs: seq<Reading>, fv: int, slot: Slot)
    requires fv !in FaceValues(rs)
    ensures Total(rs, fv, slot) == 0
  {
    if |rs| > 0 {
      var init := rs[..|rs| - 1];
      assert FaceValues(init) <= FaceValues(rs) by {
        forall x | x in FaceValues(init) ensures x in FaceValues(rs) {
          var r :| r in init && r.fv == x;
          assert r in rs;
        }
      }
      TotalAbsent(init, fv, slot);
    }
  }

  lemma FaceValuesSnoc(init: seq<Reading>, r: Reading)
    ensures FaceValues(init + [r]) == FaceValues(init) + {r.fv}
  {
  }

  lemma TotalSnoc(init: seq<Reading>, r: Reading, fv: int, slot: Slot)
    ensures Total(init + [r], fv, slot)
         == Total(init, fv, slot) + (if r.fv == fv && r.slot == slot then r.pieces else 0)
  {
  }

  /** The invariant of the grouping loop after the readings `rs`. */
  predicate Grouped(g: seq<Entry>, rs: seq<Reading>) {
    DistinctValues(g) && EntryValues(g) == FaceValues(rs) && Summarises(g, rs)
  }

  /** Counting a reading into the existing entry for its face value keeps
      the face values, and so their distinctness. */
  lemma TallyKeepsValues(g: seq<Entry>, r: Reading)
    requires Find(g, r.fv) < |g|
    ensures EntryValues(Tally(g, r)) == EntryValues(g)
    ensures DistinctValues(g) ==> DistinctValues(Tally(g, r))
  {
    var k := Find(g, r.fv);
    assert Tally(g, r) == g[k := Count(g[k], r)];
    SameFaceValues(g, Tally(g, r));
  }

  /** Two lists with the same face value at every position have the same
      face values, and one is duplicate-free when the other is. */
  lemma SameFaceValues(a: seq<Entry>, b: seq<Entry>)
    requires |a| == |b| && forall i :: 0 <= i < |a| ==> a[i].fv == b[i].fv
    ensures EntryValues(b) == EntryValues(a)
    ensures DistinctValues(a) ==> DistinctValues(b)
  {
    forall x | x in EntryValues(a) ensures x in EntryValues(b) {
      var e :| e in a && e.fv == x;
      var i :| 0 <= i < |a| && a[i] == e;
      assert b[i] in b;
    }
    forall x | x in EntryValues(b) ensures x in EntryValues(a) {
      var e :| e in b && e.fv == x;
      var i :| 0 <= i < |b| && b[i] == e;
      assert a[i] in a;
    }
  }

  /** Counting a reading into the entry for its face value keeps every entry
      summarising the readings so far. */
  lemma TallySummarises(g: seq<Entry>, init: seq<Reading>, r: Reading)
    requires Summarises(g, init) && DistinctValues(g) && Find(g, r.fv) < |g|
    ensures Summarises(Tally(g, r), init + [r])
  {
    var g' := Tally(g, r);
    forall i | 0 <= i < |g'|
      ensures g'[i].media == MediaOf(g'[i].fv)
      ensures g'[i].qty == Total(init + [r], g'[i].fv, Dispensable)
      ensures g'[i].inStacker == Total(init + [r], g'[i].fv, Stacker)
    {
      assert g[i] in g;
      TotalSnoc(init, r, g[i].fv, Dispensable);
      TotalSnoc(init, r, g[i].fv, Stacker);
    }
  }

  /** A reading whose face value already has an entry updates that entry. */
  lemma TallyExisting(g: seq<Entry>, init: seq<Reading>, r: Reading)
    requires Grouped(g, init) && Find(g, r.fv) < |g|
    ensures Grouped(Tally(g, r), init + [r])
  {
    assert r.fv in EntryValues(g) by { assert g[Find(g, r.fv)] in g; }
    FaceValuesSnoc(init, r);
    TallyKeepsValues(g, r);
    TallySummarises(g, init, r);
  }

  /** A reading with a new face value appends a fresh entry for it. */
  lemma TallyFresh(g: seq<Entry>, init: seq<Reading>, r: Reading)
    requires Grouped(g, init) && Find(g, r.fv) == |g|
    ensures Grouped(Tally(g, r), init + [r])
  {
    var g' := Tally(g, r);
    assert g' == g + [Count(Fresh(r.fv), r)];
    assert r.fv !in FaceValues(init);
    FaceValuesSnoc(init, r);
    TotalAbsent(init, r.fv, Dispensable);
    TotalAbsent(init, r.fv, Stacker);
    forall e | e in g'
      ensures e.media == MediaOf(e.fv)
      ensures e.qty == Total(init + [r], e.fv, Dispensable)
      ensures e.inStacker == Total(init + [r], e.fv, Stacker)
    {
      var i :| 0 <= i < |g'| && g'[i] == e;
      TotalSnoc(init, r, e.fv, Dispensable);
      TotalSnoc(init, r, e.fv, Stacker);
      if i < |g| {
        assert g[i] in g;
        assert g[i].fv in FaceValues(init);
      }
    }
  }

  /** The grouping loop yields exactly one entry per face value read, each
      holding that face value's dispensable and stacker totals. */
  lemma {:induction false} GroupCorrect(rs: seq<Reading>)
    ensures DistinctValues(Group(rs))
    ensures EntryValues(Group(rs)) == FaceValues(rs)
    ensures Summarises(Group(rs), rs)
  {
    if |rs| > 0 {
      var init, r := rs[..|rs| - 1], rs[|rs| - 1];
      GroupCorrect(init);
      assert rs == init + [r];
      if Find(Group(init), r.fv) < |Group(init)| {
        TallyExisting(Group(init), init, r);
      } else {
        TallyFresh(Group(init), init, r);
      }
    }
  }

  /** What the mapper promises for a well-shaped payload: one entry per face
      value read (any slot type creates its entry), each with the summed
      counts of slot types "3" and "4" and its media class, highest face
      value first. */
  lemma InventoryCorrect(raw: JSON)
    requires CashList(raw).Some?
    ensures var rs := Readings(CashList(raw).value);
      && EntryValues(MapInventory(raw)) == FaceValues(rs)
      && Summarises(MapInventory(raw), rs)
      && Descending(MapInventory(raw))
  {
    var rs := Readings(CashList(raw).value);
    var r := MapInventory(raw);
    GroupCorrect(rs);
    assert forall e :: e in r <==> e in Group(rs) by {
      forall e ensures e in r <==> e in Group(rs) {
        assert e in r <==> e in multiset(r);
        assert e in Group(rs) <==> e in multiset(Group(rs));
      }
    }
    SameValues(r, Group(rs));
  }

  // ---------------------------------------------------------------------
  // A worked payload: five dispensable and twelve stacked 20-baht notes

  /** A type-"3" slot holding a single denomination record (not a list). */
  function DispensableSlot(): JSON {
    JObj(map["type" := JStr("3"),
             "Denomination" := JObj(map["fv" := JNum(2000), "Piece" := JObj(map["value" := JNum(5)])])])
  }

  /** A type-"4" slot holding a list of denomination records. */
  function StackerSlot(): JSON {
    JObj(map["type" := JStr("4"),
             "Denomination" := JArr([JObj(map["fv" := JNum(2000), "Piece" := JArr([JObj(map["value" := JNum(12)])])])])])
  }

  function ExamplePayload(): JSON {
    JObj(map["Body" := JArr([JObj(map["InventoryResponse" := JArr([JObj(map[
      "Cash" := JArr([DispensableSlot(), StackerSlot()])])])])])])
  }

  lemma DispensableSlotReadings()
    ensures SlotReadings(DispensableSlot()) == [Reading(Dispensable, 2000, 5)]
  {
  }

  lemma StackerSlotReadings()
    ensures SlotReadings(StackerSlot()) == [Reading(Stacker, 2000, 12)]
  {
  }

  lemma ExampleCashList()
    ensures CashList(ExamplePayload()) == Some([DispensableSlot(), StackerSlot()])
  {
  }

  lemma ExampleReadings()
    ensures Readings([DispensableSlot(), StackerSlot()]) == [Reading(Dispensable, 2000, 5), Reading(Stacker, 2000, 12)]
  {
    DispensableSlotReadings();
    StackerSlotReadings();
    var cash := [DispensableSlot(), StackerSlot()];
    assert cash[1..][1..] == [];
  }

  /** The two readings merge into one entry. */
  lemma ExampleGroup()
    ensures Group([Reading(Dispensable, 2000, 5), Reading(Stacker, 2000, 12)]) == [Entry(2000, 5, 12, Banknote)]
  {
  }

  /** The two slots merge into one 20-baht banknote entry with qty 5 and
      inStacker 12. */
  lemma ExampleInventory()
    ensures MapInventory(ExamplePayload()) == [Entry(2000, 5, 12, Banknote)]
  {
    ExampleCashList();
    ExampleReadings();
    ExampleGroup();
    var single := [Entry(2000, 5, 12, Banknote)];
    assert single[1..] == [];
  }
}

=== FILE: json.dfy ===
/** Untyped JSON values, as the upstream device service sends them, and the
    two lookup idioms the payload extractors rely on. Numbers are integers:
    every amount in this model is a whole number of satang. */
module Json {

  datatype JSON =
    | JNull
    | JNum(n: int)
    | JStr(s: string)
    | JArr(items: seq<JSON>)
    | JObj(fields: map<string, JSON>)

  /** `d.get(key)`: a missing key and an explicit null both read as null. */
  function Field(fields: map<string, JSON>, key: string): (v: JSON)
    ensures key !in fields ==> v == JNull
    ensures key in fields ==> v == fields[key]
  {
    if key in fields then fields[key] else JNull
  }

  /** The items of a list; anything else has none. */
  function ListOf(v: JSON): (items: seq<JSON>)
    ensures v.JArr? ==> items == v.items
    ensures !v.JArr? ==> items == []
  {
    match v
    case JArr(xs) => xs
    case _ => []
  }

  /** Normalises "a list of records or a single record": an object counts as a
      one-element list, a list is kept as it is, anything else is empty. */
  function AsList(v: JSON): (items: seq<JSON>)
    ensures v.JObj? ==> items == [v]
    ensures v.JArr? ==> items == v.items
    ensures !v.JObj? && !v.JArr? ==> items == []
  {
    match v
    case JObj(_) => [v]
    case JArr(xs) => xs
    case _ => []
  }

  /** Null, a number or a string: a value that is neither a list nor an object. */
  predicate IsScalar(v: JSON) { !v.JArr? && !v.JObj? }

  /** `_safe_first_value(container, key)`: look `key` up, take the first item
      when it is a list (null for an empty list), then unwrap a record's
      `value` field when it has one. A container that is not an object
      yields null. */
  function SafeFirstValue(container: JSON, key: string): (v: JSON)
    ensures !container.JObj? ==> v == JNull
    ensures container.JObj? && key !in container.fields ==> v == JNull
    ensures (container.JObj? && key in container.fields && IsScalar(container.fields[key]))
              ==> v == container.fields[key]
    ensures (container.JObj? && key in container.fields && container.fields[key] == JArr([]))
              ==> v == JNull
  {
    match container
    case JObj(fields) =>
      var found := Field(fields, key);
      var first := match found
        case JArr(xs) => if |xs| > 0 then xs[0] else JNull
        case _ => found;
      (match first
       case JObj(record) => if "value" in record then record["value"] else first
       case _ => first)
    case _ => JNull
  }

  /** A single record under `key` reads the same as a list whose first item
      is that record: `_safe_first_value` treats both shapes alike. */
  lemma SafeFirstValueSingleAsList(fields: map<string, JSON>, key: string, x: JSON, rest: seq<JSON>)
    requires !x.JArr?
    ensures SafeFirstValue(JObj(fields[key := x]), key)
         == SafeFirstValue(JObj(fields[key := JArr([x] + rest)]), key)
  {
  }

  /** A record with a `value` field is unwrapped to that field, whether or not
      it is wrapped in a list. */
  lemma SafeFirstValueUnwrapsRecord(fields: map<string, JSON>, key: string, record: map<string, JSON>, rest: seq<JSON>)
    requires "value" in record
    ensures SafeFirstValue(JObj(fields[key := JObj(record)]), key) == record["value"]
    ensures SafeFirstValue(JObj(fields[key := JArr([JObj(record)] + rest)]), key) == record["value"]
  {
  }
}

=== FILE: numerals.dfy ===
/** Python's lenient numeral conversions as the extractors use them:
    `str(v)`, `int(str(v))`, `float(s) if "." in s else int(s)` and
    `float(v)`, restricted to values that are whole numbers of satang.
    A numeral is optional surrounding ASCII whitespace, an optional sign,
    and decimal digits with at most one '.'. */
module Numerals {
  import opened Wrappers
  import opened Json

  predicate IsDigit(c: char) { '0' <= c <= '9' }

  predicate AllDigits(s: string) { forall i :: 0 <= i < |s| ==> IsDigit(s[i]) }

  function DigitValue(c: char): nat
    requires IsDigit(c)
  {
    c as int - '0' as int
  }

  function DigitChar(d: nat): (c: char)
    requires d < 10
    ensures IsDigit(c) && DigitValue(c) == d
  {
    ('0' as int + d) as char
  }

  /** The value of a string of decimal digits (the empty string reads as 0). */
  function NatOf(s: string): nat
    requires AllDigits(s)
  {
    if |s| == 0 then 0 else 10 * NatOf(s[..|s| - 1]) + DigitValue(s[|s| - 1])
  }

  function Pow10(k: nat): (p: nat)
    ensures p >= 1
  {
    if k == 0 then 1 else 10 * Pow10(k - 1)
  }

  /** `str(n)` for a natural number: its shortest decimal digit string. */
  function ShowNat(n: nat): (s: string)
    ensures |s| > 0 && AllDigits(s)
    ensures |s| > 1 ==> s[0] != '0'
  {
    if n < 10 then [DigitChar(n)] else ShowNat(n / 10) + [DigitChar(n % 10)]
  }

  /** `str(n)` for an integer. */
  function ShowInt(n: int): (s: string)
    ensures |s| > 0 && IsDigit(s[|s| - 1])
    ensures n >= 0 ==> AllDigits(s)
    ensures n < 0 ==> s[0] == '-' && AllDigits(s[1..])
  {
    if n < 0 then "-" + ShowNat(-n) else ShowNat(n)
  }

  /** ASCII whitespace as `str.strip()`, `int()` and `float()` see it: space,
      tab to carriage return, and the separators 0x1C to 0x1F. */
  predicate IsSpace(c: char) { c == ' ' || '\t' <= c <= '\r' || '\U{1C}' <= c <= '\U{1F}' }

  /** Drops leading whitespace. */
  function TrimStart(s: string): (r: string)
    ensures |r| <= |s| && r == s[|s| - |r|..]
    ensures |r| > 0 ==> !IsSpace(r[0])
    ensures forall i :: 0 <= i < |s| - |r| ==> IsSpace(s[i])
  {
    if |s| > 0 && IsSpace(s[0]) then TrimStart(s[1..]) else s
  }

  /** Drops trailing whitespace. */
  function TrimEnd(s: string): (r: string)
    ensures |r| <= |s| && r == s[..|r|]
    ensures |r| > 0 ==> !IsSpace(r[|r| - 1])
    ensures forall i :: |r| <= i < |s| ==> IsSpace(s[i])
  {
    if |s| > 0 && IsSpace(s[|s| - 1]) then TrimEnd(s[..|s| - 1]) else s
  }

  /** `s.strip()`, for ASCII whitespace: nothing is left exactly when the
      text is all whitespace, and what is left neither starts nor ends with
      whitespace. */
  function Strip(s: string): (r: string)
    ensures |r| <= |s|
    ensures |r| > 0 ==> !IsSpace(r[0]) && !IsSpace(r[|r| - 1])
    ensures r == [] <==> forall i :: 0 <= i < |s| ==> IsSpace(s[i])
  {
    var t := TrimStart(s);
    var r := TrimEnd(t);
    assert |r| > 0 ==> r[0] == t[0];
    r
  }

  /** Position of the first '.', or |s| when there is none. */
  function DotIndex(s: string): (k: nat)
    ensures k <= |s|
    ensures k < |s| ==> s[k] == '.'
    ensures forall i :: 0 <= i < k ==> s[i] != '.'
  {
    if |s| == 0 || s[0] == '.' then 0 else 1 + DotIndex(s[1..])
  }

  /** A decimal number `units / 10^places`. */
  datatype Decimal = Decimal(units: int, places: nat)

  /** The value of `whole '.' fraction`: the digits read together, with
      `|fraction|` of them after the point. */
  function Pointed(whole: string, fraction: string): (d: Decimal)
    requires AllDigits(whole) && AllDigits(fraction)
    ensures d.places == |fraction| && d.units >= 0
  {
    assert forall i :: 0 <= i < |whole + fraction| ==> (whole + fraction)[i] in whole + fraction;
    Decimal(NatOf(whole + fraction), |fraction|)
  }

  /** An unsigned numeral: digits, or digits '.' digits with at least one
      digit on either side of the point. */
  function ParseUnsigned(t: string): (r: Option<Decimal>)
    ensures AllDigits(t) && |t| > 0 ==> r == Some(Decimal(NatOf(t), 0))
    ensures r.Some? ==> r.value.units >= 0
    ensures r.Some? && '.' !in t ==> r.value.places == 0
    ensures r.Some? ==> |t| > 0 && (IsDigit(t[0]) || t[0] == '.')
  {
    var k := DotIndex(t);
    if k == |t| then
      if |t| > 0 && AllDigits(t) then Some(Decimal(NatOf(t), 0)) else None
    else
      var whole, fraction := t[..k], t[k + 1..];
      if |whole| + |fraction| > 0 && AllDigits(whole) && AllDigits(fraction)
      then
        assert k > 0 ==> t[0] == whole[0];
        Some(Pointed(whole, fraction))
      else None
  }

  /** A signed numeral with optional surrounding whitespace, as `float(s)`
      accepts it (exponents, `inf` and `nan` are not modelled). */
  function ParseDecimal(s: string): (r: Option<Decimal>)
    ensures r.Some? && '.' !in s ==> r.value.places == 0
    ensures r.Some? ==> |Strip(s)| > 0 && (IsDigit(Strip(s)[0]) || Strip(s)[0] in "+-.")
    ensures r.Some? && r.value.units < 0 ==> Strip(s)[0] == '-'
  {
    var t := Strip(s);
    assert forall c :: c in t ==> c in s;
    if |t| > 0 && (t[0] == '-' || t[0] == '+') then
      match ParseUnsigned(t[1..])
      case Some(d) => Some(if t[0] == '-' then Decimal(-d.units, d.places) else d)
      case None => None
    else
      ParseUnsigned(t)
  }

  /** `int(s)`: a numeral without a point. It succeeds exactly when the
      decimal reading does, with the same value. */
  function ParseInt(s: string): (r: Option<int>)
    ensures '.' in s ==> r == None
    ensures r.Some? ==> ParseDecimal(s) == Some(Decimal(r.value, 0))
    ensures '.' !in s && ParseDecimal(s).Some? ==> r == Some(ParseDecimal(s).value.units)
    ensures '.' !in s && ParseDecimal(s).None? ==> r.None?
  {
    if '.' in s then None
    else
      match ParseDecimal(s)
      case Some(d) => Some(d.units)
      case None => None
  }

  /** `d * 10^scale` when that is a whole number, moving the point one digit
      at a time: right by appending a zero, left by dropping a zero digit. */
  function Scaled(d: Decimal, scale: nat): (r: Option<int>)
    ensures d.places <= scale ==> r.Some?
    ensures d.units == 0 ==> r == Some(0)
    decreases if d.places <= scale then scale - d.places else d.places - scale
  {
    if d.places < scale then Scaled(Decimal(10 * d.units, d.places + 1), scale)
    else if d.places == scale then Some(d.units)
    else if d.units % 10 == 0 then Scaled(Decimal(d.units / 10, d.places - 1), scale)
    else None
  }

  lemma {:induction false} Pow10Add(a: nat, b: nat)
    ensures Pow10(a + b) == Pow10(a) * Pow10(b)
  {
    if a > 0 {
      Pow10Add(a - 1, b);
      assert Pow10(a + b) == 10 * Pow10(a - 1 + b);
    }
  }

  lemma MulCancel(x: int, y: int, c: int)
    requires c > 0
    ensures x * c == y * c <==> x == y
  {
  }

  lemma MulAssoc(a: int, b: int, c: int)
    ensures a * (b * c) == (a * b) * c
  {
  }

  lemma TenFactor(v: int, q: int)
    ensures (v * (10 * q)) % 10 == 0
  {
    assert v * (10 * q) == 10 * (v * q);
  }

  /** A units count not ending in 0 is no multiple of a higher power of ten. */
  lemma TrailingDigitNotScaled(u: int, p: nat, scale: nat, v: int)
    requires p > scale && u % 10 != 0
    ensures v * Pow10(p) != u * Pow10(scale)
  {
    var k := p - scale;
    var big, small := Pow10(k), Pow10(scale);
    Pow10Add(k, scale);
    assert Pow10(p) == big * small;
    MulAssoc(v, big, small);
    if v * Pow10(p) == u * small {
      MulCancel(v * big, u, small);
      assert u == v * big;
      TenFactor(v, Pow10(k - 1));
      assert false;
    }
  }

  /** Both sides of the exactness equation scaled by ten. */
  lemma TimesTen(v: int, u: int, p: nat, scale: nat)
    ensures v * Pow10(p + 1) == 10 * (v * Pow10(p))
    ensures (v * Pow10(p + 1) == (10 * u) * Pow10(scale)) <==> (v * Pow10(p) == u * Pow10(scale))
  {
  }

  /** The conversion is exact: it yields v precisely when
      v * 10^places == units * 10^scale, and nothing when no such v exists. */
  lemma {:induction false} ScaledIsExact(d: Decimal, scale: nat, v: int)
    ensures Scaled(d, scale) == Some(v) <==> v * Pow10(d.places) == d.units * Pow10(scale)
    decreases if d.places <= scale then scale - d.places else d.places - scale
  {
    var p, u := d.places, d.units;
    if p < scale {
      ScaledIsExact(Decimal(10 * u, p + 1), scale, v);
      TimesTen(v, u, p, scale);
    } else if p == scale {
      MulCancel(v, u, Pow10(p));
    } else if u % 10 == 0 {
      ScaledIsExact(Decimal(u / 10, p - 1), scale, v);
      assert u == 10 * (u / 10);
      TimesTen(v, u / 10, p - 1, scale);
    } else {
      TrailingDigitNotScaled(u, p, scale, v);
    }
  }

  /** `float(s) if "." in s else int(s)` read as a count of satang: a numeral
      with a point is kept only when its value is whole. */
  function Numeral(s: string): (r: Option<int>)
    ensures '.' !in s ==> r == ParseInt(s)
    ensures '.' in s && ParseDecimal(s).None? ==> r.None?
  {
    if '.' in s then
      match ParseDecimal(s)
      case Some(d) => Scaled(d, 0)
      case None => None
    else
      ParseInt(s)
  }

  /** Python's `str(v)` on the scalar shapes. The text of a list or an object
      starts with a bracket, so it never parses as a numeral and never equals
      a type code; it is left as None. */
  function Str(v: JSON): (r: Option<string>)
    ensures v.JStr? ==> r == Some(v.s)
    ensures v.JNull? ==> r == Some("None")
    ensures v.JNum? ==> r == Some(ShowInt(v.n))
    ensures (v.JArr? || v.JObj?) <==> r.None?
  {
    match v
    case JNull => Some("None")
    case JNum(n) => Some(ShowInt(n))
    case JStr(s) => Some(s)
    case _ => None
  }

  /** `str(v) == code`. A one-digit code is matched by exactly that string
      and that number, so the type tests accept `"3"` and `3` alike. */
  predicate TypeIs(v: JSON, code: string)
    ensures v.JStr? ==> (TypeIs(v, code) <==> v.s == code)
    ensures v.JArr? || v.JObj? ==> !TypeIs(v, code)
    ensures (|code| == 1 && IsDigit(code[0]))
              ==> (TypeIs(v, code) <==> v == JStr(code) || v == JNum(DigitValue(code[0])))
  {
    if |code| == 1 && IsDigit(code[0]) then
      StrDigit(v, code[0]);
      assert [code[0]] == code;
      Str(v) == Some(code)
    else
      Str(v) == Some(code)
  }

  /** `int(str(v))`, None where Python raises: a number is itself, a string
      is read by `int`, and null (text "None") and containers fail. */
  function IntOf(v: JSON): (r: Option<int>)
    ensures v.JNum? ==> r == Some(v.n)
    ensures v.JStr? ==> r == ParseInt(v.s)
    ensures !v.JNum? && !v.JStr? ==> r.None?
  {
    StrNumerals(v);
    match Str(v)
    case Some(s) => ParseInt(s)
    case None => None
  }

  /** `float(s) if "." in s else int(s)` with `s = str(v)`: the face-value and
      amount parse of the cash-in extractor. A number is itself, a string is
      read as a numeral, and null and containers fail. */
  function NumeralOf(v: JSON): (r: Option<int>)
    ensures v.JNum? ==> r == Some(v.n)
    ensures v.JStr? ==> r == Numeral(v.s)
    ensures !v.JNum? && !v.JStr? ==> r.None?
  {
    StrNumerals(v);
    match Str(v)
    case Some(s) => Numeral(s)
    case None => None
  }

  /** The inventory mapper's `ensure_num(v, default)`: None stands for the
      default. Numbers pass through; other values go through their text. */
  function EnsureNum(v: JSON): (r: Option<int>)
    ensures v.JNum? ==> r == Some(v.n)
    ensures v.JNull? ==> r == None
  {
    match v
    case JNull => None
    case JNum(n) => Some(n)
    case _ => NumeralOf(v)
  }

  /** `float(v)` for an amount in baht, as a whole number of satang; None
      where Python raises or the amount has a fraction of a satang. */
  function BahtOf(v: JSON): (r: Option<int>)
    ensures v.JNum? ==> r == Some(100 * v.n)
    ensures v.JNull? || v.JArr? || v.JObj? ==> r == None
    ensures v.JStr? && ParseDecimal(v.s).None? ==> r.None?
    ensures v.JStr? && ParseDecimal(v.s).Some? && ParseDecimal(v.s).value.places <= 2 ==> r.Some?
  {
    match v
    case JNum(n) => Some(100 * n)
    case JStr(s) =>
      (match ParseDecimal(s)
       case Some(d) => Scaled(d, 2)
       case None => None)
    case _ => None
  }

  /** Division by ten rounding toward zero: the quotient has the sign of u
      and ten times it is within one step of u on the side of zero. */
  function Quot10(u: int): (q: int)
    ensures u >= 0 ==> 0 <= q && 10 * q <= u < 10 * q + 10
    ensures u < 0 ==> q <= 0 && 10 * q - 10 < u <= 10 * q
  {
    if u >= 0 then u / 10 else -((-u) / 10)
  }

  /** `int(x)` of a decimal: truncation toward zero, one digit at a time. A
      value without places is itself, and the sign is never flipped. */
  function Truncate(d: Decimal): (t: int)
    ensures d.places == 0 ==> t == d.units
    ensures d.units >= 0 ==> t >= 0
    ensures d.units <= 0 ==> t <= 0
    decreases d.places
  {
    if d.places == 0 then d.units else Truncate(Decimal(Quot10(d.units), d.places - 1))
  }

  /** The inventory's piece count `int(ensure_num(v, 0))`: a number is itself,
      a numeral with a point is read as a float and truncated toward zero,
      and anything unreadable counts 0. Whole values agree with `ensure_num`. */
  function CountOf(v: JSON): (n: int)
    ensures v.JNum? ==> n == v.n
    ensures v.JNull? || v.JArr? || v.JObj? ==> n == 0
    ensures EnsureNum(v).Some? ==> n == EnsureNum(v).value
    ensures v.JStr? && ParseDecimal(v.s).None? ==> n == 0
    ensures (v.JStr? && '.' in v.s && ParseDecimal(v.s).Some?) ==> n == Truncate(ParseDecimal(v.s).value)
  {
    match v
    case JNull => 0
    case JNum(k) => k
    case JStr(s) =>
      if '.' in s then
        match ParseDecimal(s)
        case Some(d) =>
          (match Scaled(d, 0)
           case Some(w) => TruncateWhole(d, w); Truncate(d)
           case None => Truncate(d))
        case None => 0
      else ParseInt(s).GetOr(0)
    case _ => 0
  }

  // ---------------------------------------------------------------------
  // Round trips

  lemma {:induction false} NatOfShowNat(n: nat)
    ensures NatOf(ShowNat(n)) == n
  {
    if n >= 10 {
      var s := ShowNat(n);
      assert s[..|s| - 1] == ShowNat(n / 10);
      NatOfShowNat(n / 10);
    }
  }

  /** A digit string (possibly after a sign) is its own stripped form. */
  lemma StripNoSpace(s: string)
    requires |s| > 0 && !IsSpace(s[0]) && !IsSpace(s[|s| - 1])
    ensures Strip(s) == s
  {
  }

  /** `int(str(n)) == n` for every integer n. */
  lemma ParseIntShowInt(n: int)
    ensures ParseInt(ShowInt(n)) == Some(n)
  {
    var s := ShowInt(n);
    assert '.' !in s by {
      if n < 0 {
        assert s == "-" + ShowNat(-n);
        assert forall i :: 1 <= i < |s| ==> s[i] == ShowNat(-n)[i - 1];
      }
    }
    StripNoSpace(s);
    if n < 0 {
      NatOfShowNat(-n);
      assert s[1..] == ShowNat(-n);
    } else {
      NatOfShowNat(n);
    }
  }

  /** A one-digit text is `str` of exactly that string and that number. */
  lemma StrDigit(v: JSON, d: char)
    requires IsDigit(d)
    ensures Str(v) == Some([d]) <==> v == JStr([d]) || v == JNum(DigitValue(d))
  {
    var k := DigitValue(d);
    assert DigitChar(k) == d;
    assert ShowInt(k) == [d];
    if v.JNum? && ShowInt(v.n) == [d] {
      ParseIntShowInt(v.n);
      ParseIntShowInt(k);
    }
  }

  /** The text of a number reads back as that number, and "None", the text
      of null, reads as nothing. */
  lemma StrNumerals(v: JSON)
    ensures v.JNum? ==> '.' !in ShowInt(v.n) && ParseInt(ShowInt(v.n)) == Some(v.n)
    ensures ParseInt("None") == None && Numeral("None") == None
  {
    if v.JNum? {
      ParseIntShowInt(v.n);
    }
    assert "None"[0] == 'N';
    NotANumeral("None");
    assert '.' !in "None";
  }

  /** Text that starts with neither a digit, a sign nor a point is no
      numeral, such as "None", Python's text for null. */
  lemma NotANumeral(s: string)
    requires |s| > 0 && !IsSpace(s[0]) && !IsSpace(s[|s| - 1])
    requires !IsDigit(s[0]) && s[0] != '-' && s[0] != '+' && s[0] != '.'
    ensures ParseDecimal(s) == None
  {
  }

  /** The inventory mapper's `ensure_num` and the cash-in extractor's face
      value parse agree on every input: a number passed through directly is
      the same number its text parses to, and null is unparsable. */
  lemma EnsureNumIsNumeralOf(v: JSON)
    ensures EnsureNum(v) == NumeralOf(v)
  {
  }

  /** Unsigned text with no surrounding whitespace is read as it stands. */
  lemma ParseDecimalUnsigned(s: string)
    requires |s| > 0 && !IsSpace(s[0]) && !IsSpace(s[|s| - 1])
    requires s[0] != '-' && s[0] != '+'
    ensures ParseDecimal(s) == ParseUnsigned(s)
  {
  }

  /** Reading a point-free digit string. */
  lemma ParseDigits(s: string)
    requires |s| > 0 && AllDigits(s)
    ensures ParseDecimal(s) == Some(Decimal(NatOf(s), 0))
  {
    assert IsDigit(s[0]) && IsDigit(s[|s| - 1]);
    StripNoSpace(s);
  }

  lemma ParseUnsignedPointed(s: string, k: nat)
    requires 0 < k < |s| - 1 && s[k] == '.'
    requires AllDigits(s[..k]) && AllDigits(s[k + 1..])
    ensures ParseUnsigned(s) == Some(Pointed(s[..k], s[k + 1..]))
  {
  }

  /** Reading `whole '.' fraction` with digits on both sides. */
  lemma ParsePointed(s: string, k: nat)
    requires 0 < k < |s| - 1 && s[k] == '.'
    requires AllDigits(s[..k]) && AllDigits(s[k + 1..])
    ensures ParseDecimal(s) == Some(Pointed(s[..k], s[k + 1..]))
  {
    assert IsDigit(s[0]) by { assert s[..k][0] == s[0]; }
    assert IsDigit(s[|s| - 1]) by { assert s[k + 1..][|s| - k - 2] == s[|s| - 1]; }
    ParseDecimalUnsigned(s);
    ParseUnsignedPointed(s, k);
  }

  /** Appending a digit shifts the value one place. */
  lemma NatOfSnoc(s: string, c: char)
    requires AllDigits(s) && IsDigit(c)
    ensures AllDigits(s + [c]) && NatOf(s + [c]) == 10 * NatOf(s) + DigitValue(c)
  {
  }

  /** Reading `whole '.' fraction` assembled from its two digit strings. */
  lemma ParseJoined(whole: string, fraction: string)
    requires |whole| > 0 && |fraction| > 0 && AllDigits(whole) && AllDigits(fraction)
    ensures ParseDecimal(whole + "." + fraction) == Some(Pointed(whole, fraction))
  {
    var s := whole + "." + fraction;
    var k := |whole|;
    assert s[..k] == whole && s[k + 1..] == fraction && s[k] == '.';
    ParsePointed(s, k);
  }

  /** Surrounding whitespace does not change a reading: `float(s)` and
      `float(s.strip())` agree. */
  lemma {:induction false} ParseDecimalStripped(s: string)
    ensures ParseDecimal(s) == ParseDecimal(Strip(s))
  {
    var t := Strip(s);
    StripIdempotent(s);
    SameStripSameReading(s, t);
  }

  /** Stripping twice changes nothing more. */
  lemma {:induction false} StripIdempotent(s: string)
    ensures Strip(Strip(s)) == Strip(s)
  {
    if |Strip(s)| > 0 {
      StripNoSpace(Strip(s));
    }
  }

  /** `ParseDecimal` looks at its text only through `Strip`. */
  lemma {:induction false} SameStripSameReading(s: string, u: string)
    requires Strip(s) == Strip(u)
    ensures ParseDecimal(s) == ParseDecimal(u)
  {
  }

  /** A leading '-' negates the reading of an unsigned numeral and keeps its
      places; text that does not read stays unreadable with the sign. */
  lemma {:induction false} ParseDecimalNegated(t: string)
    requires |t| > 0 && IsDigit(t[0]) && !IsSpace(t[|t| - 1])
    ensures ParseDecimal(t).None? ==> ParseDecimal("-" + t).None?
    ensures ParseDecimal(t).Some? ==>
      ParseDecimal("-" + t) == Some(Decimal(-ParseDecimal(t).value.units, ParseDecimal(t).value.places))
  {
    StripNoSpace(t);
    StripNoSpace("-" + t);
    assert ("-" + t)[1..] == t;
  }

  /** Tenths `a.b` at scale 0 are whole exactly when b is 0; at scale 2
      (baht to satang) they always are. */
  lemma ScaledTenths(a: nat, b: nat)
    requires b < 10
    ensures Scaled(Decimal(10 * a + b, 1), 0) == (if b == 0 then Some(a) else None)
    ensures Scaled(Decimal(10 * a + b, 1), 2) == Some(100 * a + 10 * b)
  {
  }

  /** Reading `whole '.' d` with a single fractional digit. */
  lemma ParseTenths(whole: string, d: char)
    requires |whole| > 0 && AllDigits(whole) && IsDigit(d)
    ensures '.' in whole + "." + [d]
    ensures ParseDecimal(whole + "." + [d]) == Some(Decimal(10 * NatOf(whole) + DigitValue(d), 1))
  {
    assert (whole + "." + [d])[|whole|] == '.';
    ParseJoined(whole, [d]);
    PointedTenths(whole, d);
  }

  lemma PointedTenths(whole: string, d: char)
    requires AllDigits(whole) && IsDigit(d)
    ensures Pointed(whole, [d]) == Decimal(10 * NatOf(whole) + DigitValue(d), 1)
  {
  }

  /** A numeral with one decimal read at scale 0 (`float(s)` as a count of
      satang) is kept exactly when its tenths digit is 0: "500.0" is 500,
      "12.5" has no reading. */
  lemma NumeralOfTenths(s: string, n: nat, v: nat)
    requires v < 10 && '.' in s && ParseDecimal(s) == Some(Decimal(10 * n + v, 1))
    ensures Numeral(s) == if v == 0 then Some(n) else None
  {
    ScaledTenths(n, v);
  }

  /** Baht with one decimal are read exactly as satang: "1.5" is 150. */
  lemma BahtOfTenths(s: string, n: nat, v: nat)
    requires v < 10 && ParseDecimal(s) == Some(Decimal(10 * n + v, 1))
    ensures BahtOf(JStr(s)) == Some(100 * n + 10 * v)
  {
    ScaledTenths(n, v);
  }

  /** `float(s) if "." in s else int(s)` with a point is exact: it yields v
      precisely when the text's value is the whole number v. */
  lemma NumeralExact(s: string, v: int)
    requires '.' in s
    ensures Numeral(s) == Some(v)
        <==> ParseDecimal(s).Some? && v * Pow10(ParseDecimal(s).value.places) == ParseDecimal(s).value.units
  {
    if ParseDecimal(s).Some? {
      var d := ParseDecimal(s).value;
      assert Numeral(s) == Scaled(d, 0);
      ScaledIsExact(d, 0, v);
      assert d.units * Pow10(0) == d.units;
    }
  }

  /** `float(s)` of baht text is exact to the satang: it yields x satang
      precisely when the text's value is x / 100. */
  lemma BahtOfExact(s: string, x: int)
    ensures BahtOf(JStr(s)) == Some(x)
        <==> ParseDecimal(s).Some? && x * Pow10(ParseDecimal(s).value.places) == 100 * ParseDecimal(s).value.units
  {
    if ParseDecimal(s).Some? {
      ScaledIsExact(ParseDecimal(s).value, 2, x);
      assert Pow10(2) == 100;
    }
  }

  // ---------------------------------------------------------------------
  // Truncation

  /** Truncating a whole value changes nothing. */
  lemma {:induction false} TruncateWhole(d: Decimal, v: int)
    requires Scaled(d, 0) == Some(v)
    ensures Truncate(d) == v
    decreases d.places
  {
    if d.places > 0 {
      var u := d.units;
      assert u % 10 == 0;
      assert Quot10(u) == u / 10;
      TruncateWhole(Decimal(u / 10, d.places - 1), v);
    }
  }

  /** Dropping the last digit of u keeps it between consecutive multiples:
      bounds on u / 10 at scale b give bounds on u at scale 10 * b. */
  lemma ShiftBounds(t: int, b: int, q: int, u: int)
    requires b >= 1 && t * b <= q < (t + 1) * b
    requires 10 * q <= u < 10 * q + 10
    ensures t * (10 * b) <= u < (t + 1) * (10 * b)
  {
    assert q + 1 <= (t + 1) * b;
    assert t * (10 * b) == 10 * (t * b);
    assert (t + 1) * (10 * b) == 10 * ((t + 1) * b);
  }

  /** For a non-negative decimal the truncation t is the whole part:
      t * 10^places <= units < (t + 1) * 10^places. */
  lemma {:induction false} TruncateBounds(u: nat, p: nat)
    ensures Truncate(Decimal(u, p)) >= 0
    ensures Truncate(Decimal(u, p)) * Pow10(p) <= u < (Truncate(Decimal(u, p)) + 1) * Pow10(p)
  {
    if p > 0 {
      var q := u / 10;
      TruncateBounds(q, p - 1);
      var t, b := Truncate(Decimal(q, p - 1)), Pow10(p - 1);
      assert Truncate(Decimal(u, p)) == t;
      assert Pow10(p) == 10 * b;
      ShiftBounds(t, b, q, u);
    }
  }

  /** Truncation is symmetric about zero. */
  lemma {:induction false} TruncateNegates(u: nat, p: nat)
    ensures Truncate(Decimal(-(u as int), p)) == -Truncate(Decimal(u, p))
  {
    if p > 0 {
      assert Quot10(-(u as int)) == -Quot10(u);
      TruncateNegates(u / 10, p - 1);
    }
  }

  /** A piece count with one decimal is truncated: "2.7" counts 2. */
  lemma CountOfTenths(s: string, n: nat, v: nat)
    requires v < 10 && '.' in s && ParseDecimal(s) == Some(Decimal(10 * n + v, 1))
    ensures CountOf(JStr(s)) == n
  {
    var d := Decimal(10 * n + v, 1);
    assert CountOf(JStr(s)) == Truncate(d);
    assert Quot10(10 * n + v) == n;
    assert Truncate(d) == Truncate(Decimal(n, 0));
  }
}

=== FILE: order.dfy ===
/** The order lifecycle: one process-wide order record, changed by creating
    an order, reading its status, cancelling it, and the completion of the
    cash-in request that creating an order starts. Every handler is a pure
    transition here; upstream replies are inputs. */
module Order {
  import opened Wrappers
  import opened Json
  import opened Numerals
  import Cashin
  import Snapshot

  datatype Status = Processing | Succeeded | Cancelled

  /** The order record (`order_amount`, `is_cancelled`, `cashin_ack_received`,
      `last_cashin_received_baht`), amounts in satang. */
  datatype State = State(amount: int, cancelled: bool, acked: bool, lastCashin: int)

  /** The record at process start. */
  const Initial: State := State(0, false, false, 0)

  /** The accepted cash-in amount is only ever set from a positive reading. */
  predicate Valid(s: State) { s.lastCashin >= 0 }

  // ---------------------------------------------------------------------
  // Create

  /** Reply of a create: the order amount (with a cash-in request submitted
      for it, status "processing"), or the handler's 500 error. */
  datatype CreateReply = Created(amount: int) | CreateFailed

  /** Python truthiness of a request body: false exactly for null, 0, "",
      [] and {}. */
  predicate Truthy(body: JSON)
    ensures Truthy(body)
        <==> body != JNull && body != JNum(0) && body != JStr("") && body != JArr([]) && body != JObj(map[])
  {
    match body
    case JNull => false
    case JNum(n) => n != 0
    case JStr(s) => |s| > 0
    case JArr(xs) => |xs| > 0
    case JObj(fields) => |fields| > 0
  }

  /** `request.get_json(silent=True) or {}`, then `float(payload.get("amount", 0))`
      with 0 on a conversion error. A truthy body that is not an object makes
      `.get` raise: None. A missing or unreadable body reads as null. */
  function RequestedAmount(body: JSON): (r: Option<int>)
    ensures r.None? <==> Truthy(body) && !body.JObj?
    ensures body.JObj? ==> r == Some(BahtOf(Field(body.fields, "amount")).GetOr(0))
    ensures body.JObj? && "amount" !in body.fields ==> r == Some(0)
  {
    if !Truthy(body) then Some(0)
    else
      match body
      case JObj(fields) => Some(BahtOf(Field(fields, "amount")).GetOr(0))
      case _ => None
  }

  /** `create_order`: the flags and the accepted amount are reset first, then
      the amount is read. When reading the body fails, the reset has already
      happened but the amount is left as it was. */
  function Create(s: State, body: JSON): (r: (State, CreateReply))
    ensures !r.0.cancelled && !r.0.acked && r.0.lastCashin == 0
    ensures r.1.Created? <==> RequestedAmount(body).Some?
    ensures r.1.Created? ==> r.0.amount == r.1.amount == RequestedAmount(body).value
    ensures r.1.CreateFailed? ==> r.0.amount == s.amount
  {
    var reset := s.(cancelled := false, acked := false, lastCashin := 0);
    match RequestedAmount(body)
    case Some(a) => (reset.(amount := a), Created(a))
    case None => (reset, CreateFailed)
  }

  // ---------------------------------------------------------------------
  // Status

  /** The status reply: order amount, cash-in amount and status. */
  datatype StatusReply = StatusReply(amount: int, cashin: int, status: Status)

  /** `get_status`, with `latest` the `/socket/latest` reply (null when the
      call failed). A pending cancellation is reported once, with cash-in 0,
      and clears the order's flags and accepted amount; otherwise an
      acknowledged cash-in is reported once as "succeeded", clearing only the
      acknowledgement. The cash-in shown is the accepted amount when it is
      nonzero, else the amount the snapshot says is inserted. */
  function Read(s: State, latest: JSON): (r: (State, StatusReply))
    ensures r.1.amount == s.amount && r.0.amount == s.amount
    ensures r.1.status == Cancelled <==> s.cancelled
    ensures r.1.status == Succeeded <==> !s.cancelled && s.acked
    ensures s.cancelled ==> r.1.cashin == 0 && r.0 == s.(cancelled := false, acked := false, lastCashin := 0)
    ensures !s.cancelled ==> r.1.cashin == (if s.lastCashin != 0 then s.lastCashin else Snapshot.InsertedSatang(latest))
    ensures !s.cancelled ==> r.0 == s.(acked := false)
    ensures !r.0.cancelled && !r.0.acked
  {
    var inserted := Snapshot.InsertedSatang(latest);
    var cashin := if s.lastCashin != 0 then s.lastCashin else inserted;
    if s.cancelled then
      (s.(cancelled := false, acked := false, lastCashin := 0), StatusReply(s.amount, 0, Cancelled))
    else if s.acked then
      (s.(acked := false), StatusReply(s.amount, cashin, Succeeded))
    else
      (s, StatusReply(s.amount, cashin, Processing))
  }

  // ---------------------------------------------------------------------
  // Cancel and cash-in completion

  /** `cancel_order`: the upstream cancel is best effort and its outcome is
      ignored; the cancelled flag is set whatever the state. */
  function Cancel(s: State): (r: State)
    ensures r.cancelled
    ensures r.(cancelled := s.cancelled) == s
  {
    s.(cancelled := true)
  }

  /** How the detached `/cashin` call ended: an error status (400 or above)
      or a transport failure, or a reply with `resp.ok` (any status below
      400) and its body (null when it is not JSON). */
  datatype CashinOutcome = Failed | Answered(body: JSON)

  /** The amount an ok reply's body reports, 0 when it is not an object. The
      extractor already gives 0 there, so this is the extractor itself. */
  function AcceptedAmount(body: JSON): (r: int)
    ensures r == Cashin.ExtractCashin(body)
  {
    if body.JObj? then Cashin.ExtractCashin(body) else 0
  }

  /** `_call_upstream_cashin` completing: an ok reply sets the
      acknowledgement and, when it reports a positive amount, records it as
      the accepted amount; a failure changes nothing. */
  function Complete(s: State, outcome: CashinOutcome): (r: State)
    ensures outcome.Failed? ==> r == s
    ensures outcome.Answered? ==> r.acked
    ensures r.amount == s.amount && r.cancelled == s.cancelled
    ensures outcome.Answered? && AcceptedAmount(outcome.body) > 0 ==> r.lastCashin == AcceptedAmount(outcome.body)
    ensures (outcome.Failed? || AcceptedAmount(outcome.body) <= 0) ==> r.lastCashin == s.lastCashin
  {
    match outcome
    case Failed => s
    case Answered(body) =>
      var accepted := AcceptedAmount(body);
      s.(acked := true, lastCashin := if accepted > 0 then accepted else s.lastCashin)
  }

  // ---------------------------------------------------------------------
  // Histories

  /** One thing that can happen to the order. A status read's reply is
      dropped here; `Read` gives it for any state. */
  datatype Event =
    | CreateEvent(body: JSON)
    | ReadEvent(latest: JSON)
    | CancelEvent
    | CompleteEvent(outcome: CashinOutcome)

  function Apply(s: State, e: Event): (r: State)
    ensures Valid(s) ==> Valid(r)
  {
    match e
    case CreateEvent(body) => Create(s, body).0
    case ReadEvent(latest) => Read(s, latest).0
    case CancelEvent => Cancel(s)
    case CompleteEvent(outcome) => Complete(s, outcome)
  }

  /** The record after a history of events, oldest first; no history makes
      the accepted amount negative. */
  function Run(s: State, events: seq<Event>): (r: State)
    ensures Valid(s) ==> Valid(r)
  {
    if |events| == 0 then s else Apply(Run(s, events[..|events| - 1]), events[|events| - 1])
  }

  /** A cancel has happened since the last create and the last status read:
      some cancel is followed only by cash-in completions. */
  function PendingCancel(events: seq<Event>): (p: bool)
    ensures p <==> exists i :: 0 <= i < |events| && events[i].CancelEvent?
                     && forall j :: i < j < |events| ==> events[j].CompleteEvent?
  {
    if |events| == 0 then false
    else
      assert forall i :: 0 <= i < |events| - 1 ==> events[..|events| - 1][i] == events[i];
      match events[|events| - 1]
      case CancelEvent => true
      case CreateEvent(_) => false
      case ReadEvent(_) => false
      case CompleteEvent(_) => PendingCancel(events[..|events| - 1])
  }

  /** A cash-in answered since the last create and the last status read:
      some answered completion is followed only by cancels and completions. */
  function PendingAck(events: seq<Event>): (p: bool)
    ensures p <==> exists i :: 0 <= i < |events| && events[i].CompleteEvent? && events[i].outcome.Answered?
                     && forall j :: i < j < |events| ==> events[j].CancelEvent? || events[j].CompleteEvent?
  {
    if |events| == 0 then false
    else
      assert forall i :: 0 <= i < |events| - 1 ==> events[..|events| - 1][i] == events[i];
      match events[|events| - 1]
      case CompleteEvent(Answered(_)) => true
      case CreateEvent(_) => false
      case ReadEvent(_) => false
      case _ => PendingAck(events[..|events| - 1])
  }

  /** The latest positive accepted amount since the last create and the last
      status read that reported a cancellation; 0 when there is none. A
      nonzero amount is one that some answered completion reported. */
  function Credited(events: seq<Event>): (c: int)
    ensures c >= 0
    ensures c != 0 ==> exists i :: 0 <= i < |events| && events[i].CompleteEvent? && events[i].outcome.Answered?
                          && AcceptedAmount(events[i].outcome.body) == c
  {
    if |events| == 0 then 0
    else
      var before := events[..|events| - 1];
      assert forall i :: 0 <= i < |before| ==> before[i] == events[i];
      match events[|events| - 1]
      case CompleteEvent(Answered(body)) =>
        if AcceptedAmount(body) > 0 then AcceptedAmount(body) else Credited(before)
      case CreateEvent(_) => 0
      case ReadEvent(_) => if PendingCancel(before) then 0 else Credited(before)
      case _ => Credited(before)
  }

  /** The amount of the last create whose body could be read; 0 when none.
      A nonzero amount is one that some create requested. */
  function Ordered(events: seq<Event>): (a: int)
    ensures a != 0 ==> exists i :: 0 <= i < |events| && events[i].CreateEvent?
                          && RequestedAmount(events[i].body) == Some(a)
  {
    if |events| == 0 then 0
    else
      assert forall i :: 0 <= i < |events| - 1 ==> events[..|events| - 1][i] == events[i];
      match events[|events| - 1]
      case CreateEvent(body) =>
        (match RequestedAmount(body)
         case Some(a) => a
         case None => Ordered(events[..|events| - 1]))
      case _ => Ordered(events[..|events| - 1])
  }

  /** The order record after any history from process start is exactly what
      the history says: the last readable create's amount, a cancel pending
      since the last create or read, a cash-in answered since then, and the
      last positive accepted amount not since cleared. */
  lemma {:induction false} RunMatchesHistory(events: seq<Event>)
    ensures Run(Initial, events)
         == State(Ordered(events), PendingCancel(events), PendingAck(events), Credited(events))
  {
    if |events| > 0 {
      var before, e := events[..|events| - 1], events[|events| - 1];
      assert events == before + [e];
      RunMatchesHistory(before);
      HistoryStep(before, e);
    }
  }

  /** One event moves the history's record exactly as `Apply` moves the
      state. */
  lemma HistoryStep(before: seq<Event>, e: Event)
    ensures Apply(State(Ordered(before), PendingCancel(before), PendingAck(before), Credited(before)), e)
         == State(Ordered(before + [e]), PendingCancel(before + [e]), PendingAck(before + [e]), Credited(before + [e]))
  {
    assert (before + [e])[..|before|] == before;
    assert (before + [e])[|before|] == e;
  }

  /** What a status read reports after any history from process start. */
  lemma ReadAfterHistory(events: seq<Event>, latest: JSON)
    ensures var reply := Read(Run(Initial, events), latest).1;
      && reply.amount == Ordered(events)
      && (reply.status == Cancelled <==> PendingCancel(events))
      && (reply.status == Succeeded <==> !PendingCancel(events) && PendingAck(events))
      && (PendingCancel(events) ==> reply.cashin == 0)
      && (!PendingCancel(events) && Credited(events) != 0 ==> reply.cashin == Credited(events))
      && (!PendingCancel(events) && Credited(events) == 0 ==> reply.cashin == Snapshot.InsertedSatang(latest))
  {
    RunMatchesHistory(events);
  }

  // ---------------------------------------------------------------------
  // One-shot reporting

  /** Cancel, then two reads: the first reports "cancelled" with cash-in 0,
      the second reports "processing" with whatever the snapshot shows. */
  lemma CancelledReportedOnce(s: State, first: JSON, second: JSON)
    ensures var (s1, r1) := Read(Cancel(s), first);
      var (_, r2) := Read(s1, second);
      && r1.status == Cancelled && r1.cashin == 0
      && r2.status == Processing && r2.cashin == Snapshot.InsertedSatang(second)
  {
  }

  /** Two reads in a row: whatever the first reports, the second reports
      "processing", since every read consumes both one-shot flags. */
  lemma SecondReadProcessing(s: State, first: JSON, second: JSON)
    ensures Read(Read(s, first).0, second).1.status == Processing
  {
  }

  /** A created order reads "processing" with its own amount until its
      cash-in completes. */
  lemma CreatedOrderProcessing(s: State, body: JSON, latest: JSON)
    requires RequestedAmount(body).Some?
    ensures Read(Create(s, body).0, latest).1
         == StatusReply(RequestedAmount(body).value, Snapshot.InsertedSatang(latest), Processing)
  {
  }

  /** A create, its cash-in answered, then a read: "succeeded", showing the
      accepted amount when it is positive and the snapshot otherwise. */
  lemma AnsweredOrderSucceeds(s: State, body: JSON, reply: JSON, latest: JSON)
    requires RequestedAmount(body).Some?
    ensures var r := Read(Complete(Create(s, body).0, Answered(reply)), latest).1;
      && r.status == Succeeded
      && r.amount == RequestedAmount(body).value
      && r.cashin == (if AcceptedAmount(reply) > 0 then AcceptedAmount(reply) else Snapshot.InsertedSatang(latest))
  {
  }

  /** Nothing ties a cash-in completion to the order that started it: an
      answer that arrives after the cancellation was reported makes the next
      read report "succeeded". */
  lemma LateAnswerAfterCancelSucceeds(s: State, first: JSON, reply: JSON, second: JSON)
    ensures var (s1, r1) := Read(Cancel(s), first);
      && r1.status == Cancelled
      && Read(Complete(s1, Answered(reply)), second).1.status == Succeeded
  {
  }
}

=== FILE: snapshot.dfy ===
/** The amount currently inserted, read from the device's `/socket/latest`
    snapshot. */
module Snapshot {
  import opened Wrappers
  import opened Json
  import opened Numerals

  /** `inserted_amount_baht` at the top level, or under `parsed` when the top
      level has none (null counts as none). */
  function InsertedField(latest: map<string, JSON>): (v: JSON)
    ensures Field(latest, "inserted_amount_baht") != JNull ==> v == Field(latest, "inserted_amount_baht")
    ensures (Field(latest, "inserted_amount_baht") == JNull && !Field(latest, "parsed").JObj?) ==> v == JNull
    ensures (Field(latest, "inserted_amount_baht") == JNull && Field(latest, "parsed").JObj?)
              ==> v == Field(Field(latest, "parsed").fields, "inserted_amount_baht")
  {
    var top := Field(latest, "inserted_amount_baht");
    if top != JNull then top
    else
      match Field(latest, "parsed")
      case JObj(parsed) => Field(parsed, "inserted_amount_baht")
      case _ => JNull
  }

  /** `_get_inserted_amount_from_latest`, in satang: 0 when the snapshot is
      not an object, the amount is absent, or it does not convert. */
  function InsertedSatang(latest: JSON): (r: int)
    ensures !latest.JObj? ==> r == 0
    ensures latest.JObj? ==> r == BahtOf(InsertedField(latest.fields)).GetOr(0)
  {
    match latest
    case JObj(fields) =>
      var v := InsertedField(fields);
      if v == JNull then 0 else BahtOf(v).GetOr(0)
    case _ => 0
  }

  /** A top-level amount wins over one under `parsed`. */
  lemma TopLevelWins(latest: map<string, JSON>, n: int)
    requires Field(latest, "inserted_amount_baht") == JNum(n)
    ensures InsertedSatang(JObj(latest)) == 100 * n
  {
  }

  /** Without a top-level amount, the one under `parsed` is used. */
  lemma ParsedIsFallback(latest: map<string, JSON>, parsed: map<string, JSON>, n: int)
    requires "inserted_amount_baht" !in latest
    requires Field(parsed, "inserted_amount_baht") == JNum(n)
    ensures InsertedSatang(JObj(latest["parsed" := JObj(parsed)])) == 100 * n
  {
  }
}

=== FILE: wrappers.dfy ===
/** The optional-value type used wherever the Python code returns `None` or a
    caller-supplied default on failure. */
module Wrappers {

  datatype Option<+T> = None | Some(value: T) {

    /** The wrapped value, or `default` when there is none. */
    function GetOr(default: T): T {
      match this
      case Some(v) => v
      case None => default
    }
  }
}
